=== FILE: README.md ===
# A Dafny model of the static-site build and the inline editor

The site is one HTML template filled from one JSON content document. The
build script (`src/build.js`) does three things, in this order:

- It puts schema.org structured-data records in front of the first
  `</head>` of the template.
- It expands the `{{#each path}}…{{/each}}` spans, up to 20 passes.
- It replaces the `{{path}}` placeholders with the text of the values they
  resolve to.

The in-page editor (`src/editor.js`) does the reverse. It writes the edited
text of every `data-content` region back into a copy of the content document,
using a dot-separated path. It also asks for the GitHub `owner/repo` when no
repository is configured.

This project models those pure parts and proves what they promise.

| module | file | models |
|---|---|---|
| `Base` | `base.dfy` | `Option` (a value or `undefined`) and `Result` (a value or a throw) |
| `Text` | `text.dfy` | JavaScript white space, `trim`, `split`/`join` on one character, decimal numerals |
| `Json` | `json.dfy` | the content document, `v[key]` on it, `String(v)`, truthiness |
| `Paths` | `paths.dfy` | `resolve` / `getByPath`: the reduce over the keys of a dot path |
| `Scanning` | `scanning.dfy` | one global `String.prototype.replace` pass, literal patterns, `indexOf`, and the `$`-patterns of a string replacement |
| `Placeholders` | `placeholders.dfy` | `processPlaceholders` |
| `Spans` | `spans.dfy` | what the `{{#each}}` pattern matches, and its `test` |
| `EachBlocks` | `each_blocks.dfy` | the copies of a span's body, one pass, and `processEachBlocks` |
| `JsonLd` | `json_ld.dfy` | `generateJsonLd`, as the list of records it writes, and when it throws |
| `Build` | `build.dfy` | the `</head>` injection and the whole build of one page |
| `Editor` | `editor.dfy` | `setByPath`, `collectContent`, and the `owner/repo` parsing |

Notes on how the code behaves:

- The comment at `src/build.js:17-23` says nested spans are handled
  inside-out. The code does not do that. The lazy pattern pairs the
  leftmost `{{#each` with the first `{{/each}}` after it, and an opener
  inside that body gets no closer of its own. The model follows the code:
  see `Spans.BlockRecognised`.
- `generateJsonLd` reads `data.meta.description` and `data.contact.phone`
  without guards. It maps over `faq.items` and `services.items` once they
  are truthy. It therefore throws on content that lacks `meta` or
  `contact`, on content whose listed items are not an array, and on
  content with a null entry in such an array. `JsonLd.ThrowsIff` states
  exactly when it throws.
- Two replacements pass a string, not a function, as the replacement text:
  `{{this}}` at `src/build.js:35` and `</head>` at `src/build.js:160`. Any
  `$&`, `` $` ``, `$'` or `$$` in the inserted text is therefore expanded
  (see Findings). The rest of the model uses the literal insertion the code
  evidently intends.

## Model

| member | source | states |
|---|---|---|
| Paths.Resolve | src/build.js:13-15 | resolving a dot path is the descent over its '.'-separated keys, which gives undefined at the first missing or null node and never throws |
| Paths.FoldIsWalk | src/editor.js:50-54 | the `getByPath` reduce, from any node and over any keys, agrees with the reference descent |
| Paths.ShortCircuit | src/build.js:14 | once some proper prefix of the keys reaches null or undefined, the whole path resolves to undefined |
| Paths.WalkAppend | src/build.js:14 | resolving keys `a + b` is resolving `a`, then `b` from the node reached |
| Text.SplitJoin | src/build.js:14 | splitting on '.' recovers exactly the '.'-free pieces that were joined |
| Text.TrimOf | src/editor.js:222 | `trim` of white space, then a text that neither starts nor ends with white space, then white space, is that text |
| Text.TrimSpec | src/editor.js:222 | `trim` removes a leading and a trailing run of white space and leaves a text that neither starts nor ends with white space |
| Text.TrimIdempotent | src/editor.js:222 | trimming twice is trimming once |
| Text.DecimalRoundTrip | src/build.js:45 | `String(index)` is a numeral that reads back as the index |
| Json.NumberText | src/build.js:61 | `String(n)` of an integer is its sign and its decimal digits |
| Scanning.ScanVerbatimPrefix | src/build.js:59 | a global replace copies a prefix in which no match starts, then goes on as if the prefix were not there |
| Scanning.IndexOf | src/build.js:160 | the position found is an occurrence with no earlier one, and nothing is found only when the pattern does not occur |
| Scanning.IndexFromSpec | src/build.js:19 | the search from a position finds the first occurrence at or after it |
| Scanning.ReplaceAllFront | src/build.js:45 | an occurrence at the front becomes the replacement, and the rest is replaced on its own |
| Scanning.ReplaceAllAbsent | src/build.js:45 | text in which the pattern does not occur is returned unchanged |
| Scanning.AsWrittenAgreesWithoutDollar | src/build.js:35 | a string replacement without '$' inserts the text literally |
| Scanning.DollarAmpersandEchoesMatch | src/build.js:35 | the element text "$&" put in place of `{{this}}` comes out as `{{this}}`, not as "$&" |
| Placeholders.Process | src/build.js:58-63 | text with no `{{path}}` token comes back unchanged |
| Placeholders.TokenRecognised | src/build.js:59 | every `{{p}}` with `p` drawn from `[A-Za-z0-9_.]` is a token, whatever follows it |
| Placeholders.TokenSubstituted | src/build.js:59-62 | a token becomes the text of the value its path resolves to, "" when that is null or undefined, and the substitution is not rescanned |
| Placeholders.VerbatimPrefix | src/build.js:59 | a prefix in which no token starts is copied verbatim |
| Placeholders.ForeignTagVerbatim | src/build.js:59 | a tag whose third character is outside the path alphabet, such as `{{@index}}`, `{{#each x}}` or `{{/each}}`, is kept verbatim |
| Placeholders.NoDoubleBraceUnchanged | src/build.js:59 | text without two consecutive '{' is returned unchanged |
| Spans.BlockAtSpec | src/build.js:19 | a span matched at the front of a text is well formed, is a prefix of the text and ends with a closer |
| Spans.BlockRecognised | src/build.js:19 | every well-formed span is matched at the front of its text, whatever follows, and its body ends at the first closer even when it holds another opener |
| Spans.HasBlockIff | src/build.js:24 | the pattern's `test` holds exactly when a span starts somewhere in the text |
| Spans.NoCloserNoBlock | src/build.js:19-24 | text without `{{/each}}` holds no span, so an unclosed opener is left in place |
| EachBlocks.TagFreeCopy | src/build.js:30-47 | a body without a tag (every '{' followed by a character other than '{') is copied as it is for every element |
| EachBlocks.BodyCopy | src/build.js:30-47 | for a body made of text, `{{this}}`, `{{this.p}}`, `{{@index}}` and other tags such as `{{site.name}}` or a nested `{{#each y}}`, each of the three tags is filled in wherever it stands and however often it occurs, and the text and the other tags are kept: the copy is the piece-by-piece reference `Filled`, provided the inserted values hold no tag |
| EachBlocks.InsertedTagRescanned | src/build.js:33-46 | inserted text is scanned by the later steps: an element `{{@index}}` put in for `{{this}}` comes out as the position, so `Filled` no longer describes the copy |
| EachBlocks.OtherTagCopy | src/build.js:30-47 | a tag that is none of `{{this}}`, `{{@index}}` or `{{this.p}}` is kept in every copy, with the text around it |
| EachBlocks.PlaceholderForeign | src/build.js:39 | a document placeholder `{{p}}` whose path is not `this` and does not start with `this.` is a tag the copy keeps: neither the `{{this}}` step nor the field step, which only matches paths that start with `this.`, takes it |
| EachBlocks.SpanTagsForeign | src/build.js:19 | the opener `{{#each` + white space + path + `}}` of a span nested in the body, with any white space, and the closer `{{/each}}` are tags the copy keeps, for the next pass |
| EachBlocks.IndexTagCopy | src/build.js:44-45 | `{{@index}}` between two texts without a tag becomes the element's position in decimal, and the texts around it are kept |
| EachBlocks.ThisTagCopy | src/build.js:33-36 | `{{this}}` between two texts without a tag becomes the text of a scalar or null element, when that text holds no tag, and is left in place for an object or array element; the texts around it are kept |
| EachBlocks.FieldTagCopy | src/build.js:38-42 | `{{this.p}}` between two texts without a tag becomes the text of what `p` resolves to inside the element, "" when that is null or undefined, when that text holds no tag; the texts around it are kept |
| EachBlocks.FieldIndexCopy | src/build.js:38-45 | a `{{this.p}}` and a later `{{@index}}`, with texts without a tag before, between and after them, are both filled in and the texts are kept, when the text of what `p` resolves to holds no tag |
| EachBlocks.TitleAndIndexCopy | src/build.js:30-47 | the body `<li>{{this.title}} #{{@index}}</li>` renders as `<li>`, the text of the element's title, ` #`, its position and `</li>`, when the title text holds no tag |
| EachBlocks.RenderBlock | src/build.js:27-28 | a span whose path does not lead to an array renders as nothing |
| EachBlocks.ArrayBlock | src/build.js:27-48 | a span over an array of N elements renders as the N copies of its body, in element order |
| EachBlocks.ArrayBlockFilled | src/build.js:27-48 | a span over an array whose body is made of text and tags renders as the concatenation of the filled copies, copy i filled from element i at index i |
| EachBlocks.SpanAtFront | src/build.js:26-49 | in one pass a span becomes its rendering, and the pass resumes after its closer without rescanning the rendering |
| EachBlocks.ExpandPass | src/build.js:26-49 | a pass over text without a span changes nothing |
| EachBlocks.ProcessEachBlocks | src/build.js:18-55 | the result is the text after at most 20 passes, stopping early only when no span is left, which makes it the text after exactly 20 passes; text without a span is returned unchanged |
| EachBlocks.PassesSettle | src/build.js:24 | once no span is left, further passes change nothing, so stopping there loses nothing |
| JsonLd.Get | src/build.js:74-76 | a property read throws exactly on null or undefined, and otherwise is one step of path resolution |
| JsonLd.Each | src/build.js:114-121 | mapping over the items throws exactly when one of them is null, and otherwise gives one result per item, in order |
| JsonLd.Record | src/build.js:70-142 | every record carries `"@context": "https://schema.org"` and its own `@type` |
| JsonLd.SectionSpec | src/build.js:110 | `data.x && data.x.items` selects the listed entries, and throws when they are truthy but not an array |
| JsonLd.ThrowsIff | src/build.js:66-148 | the generation throws exactly when `meta` or `contact` is missing, or a listed FAQ or service section cannot be iterated |
| JsonLd.Generated | src/build.js:66-143 | on success the records are the business (description and telephone from the content), the person, the FAQ page when FAQ items are listed, and one service per listed entry, in this order |
| JsonLd.RecordsInOrder | src/build.js:67-123 | on success there are 2 records, plus 1 when the FAQ is listed, plus one per service; the business comes first, the person second, the FAQ page third |
| Build.InjectBeforeHead | src/build.js:160 | a page without `</head>` is left unchanged |
| Build.InjectAtFirstHead | src/build.js:160 | the scripts and a line break go right before the first `</head>`, and the rest of the page stays where it was |
| Build.InjectRemovable | src/build.js:160 | cutting the inserted text back out gives the page |
| Build.InjectAgreesWithoutDollar | src/build.js:160 | scripts without '$' are inserted the same way by the call as written and by the literal insertion |
| Build.DollarInScriptIsExpanded | src/build.js:160 | on any page with a `</head>`, scripts `pre + "$&" + rest` with no other '$' get `</head>` put in place of the `$&` by the call as written, so the page differs from the literal insertion |
| Build.BuildPage | src/build.js:156-164 | the build fails exactly when `generateJsonLd` throws; otherwise the page is the placeholder pass over 20 span passes over the template with the scripts put before its first `</head>`, and a template with no `</head>`, span or placeholder comes out unchanged |
| Editor.Slot | src/editor.js:40-47 | writing into null, a boolean, a number or a string throws a TypeError |
| Editor.SetByPath | src/editor.js:31-48 | after a successful write, reading the path back gives the value written |
| Editor.Frame | src/editor.js:36-47 | a write leaves every path that diverges from its own path as it was, so existing intermediates keep all their other members |
| Editor.Along | src/editor.js:36-43 | each node along a written path is a container; an existing node is reused with its kind kept; a missing node is created as an array exactly when the next key is all digits, and as an object otherwise |
| Editor.SetExisting | src/editor.js:31-48 | a path whose nodes all exist can always be written |
| Editor.WriteSucceeds | src/editor.js:35-47 | a write succeeds exactly when every existing node it passes is an object, or an array given an index no larger than its length, and every numeric key into a node it creates is "0"; so a write through missing object nodes always succeeds |
| Editor.NewNestedKey | src/editor.js:40-42 | writing `a.b` into an empty document succeeds, creating the object `a` |
| Editor.SetSame | src/editor.js:47 | writing the value a path already holds gives the document back |
| Editor.ThroughScalar | src/editor.js:36-47 | a path that meets null, a boolean, a number or a string before its last key throws a TypeError at the key after that node |
| Editor.CollectUnchanged | src/editor.js:216-231 | when every region's path leads to a string equal to the region's trimmed text, the content equals the baseline |
| Editor.NonStringKept | src/editor.js:222-228 | no baseline value other than a string is replaced: null, booleans and numbers come out equal, and objects and arrays stay objects and arrays |
| Editor.LastRegionWritten | src/editor.js:222-228 | the last region's trimmed text is what the content holds at its path whenever the baseline holds a string there or nothing at all |
| Editor.StringsEdited | src/editor.js:216-231 | where the baseline holds a string, the content holds the trimmed text of the last region at that path, or the baseline string when no region is there |
| Editor.ParseRepo | src/editor.js:151-160 | the input is rejected exactly when the prompt was cancelled or the text has no '/' |
| Editor.RepoOf | src/editor.js:151-154 | the owner is the trimmed text before the first '/', and the name is the trimmed text between the first and the second '/' |
| Editor.RepoRoundTrip | src/editor.js:151-154 | an owner and a name without '/' and without surrounding white space are read back from "owner/name" |

## Left out

- File reads and writes, the `dist` directory and the asset copying (`src/build.js:8-10`, `src/build.js:166-end`) are I/O. `Build.BuildPage` takes the template text and the content document as parameters.
- `JSON.stringify` is library text formatting. It is the `stringify` parameter of `JsonLd.ScriptsText` and `Build.BuildPage`.
- The `computed.whatsapp_url` value (`src/build.js:150-153`) needs `encodeURIComponent`. The content document passed to `Build.BuildPage` is taken to hold it already.
- Json.ToStr: numbers are integers, so JavaScript's formatting of fractions and exponents is not modelled.
- Json.Member: a property read on a boolean, number or string gives undefined, and so does `length` on an array. So `"abc".length` and `items.length` are not modelled. `{{services.items.length}}` renders as "" where JavaScript gives the count. A region at a path that ends in `.length` on an array makes `Editor.CollectContent` fail with `NonIndexKey`, where JavaScript skips the region because the count is not a string. Inherited object properties such as `toString` are not modelled either.
- Build.BuildPage: inserts the scripts before `</head>` literally. The call as written expands `$` patterns in them (see Findings).
- EachBlocks.RenderCopy: inserts the element text for `{{this}}` literally. The call as written expands `$` patterns in it (see Findings).
- EachBlocks.BodyCopy: says nothing of a copy in which an inserted value holds a tag ("{{" or a final '{'), because the later steps scan the inserted text, as the source does; `EachBlocks.InsertedTagRescanned` shows one such outcome. It also leaves out text pieces that end in '{' and tags that start like `{{this.` without being a field token.
- EachBlocks.ThisTagCopy: says nothing of a scalar element whose text holds a tag, for the same reason.
- EachBlocks.FieldTagCopy: says nothing when the resolved text holds a tag, for the same reason.
- EachBlocks.FieldIndexCopy: says nothing when the resolved text holds a tag, for the same reason.
- EachBlocks.TitleAndIndexCopy: says nothing when the title text holds a tag, for the same reason.
- Editor.SetByPath: an index past the end of an array is a `SparseIndex` error, where JavaScript would leave holes. A key on an array that is not an index is a `NonIndexKey` error, where JavaScript would add a named property that the JSON text drops.
- Editor.SetByPath: the document is a value, so a write that throws leaves no partly written copy. In JavaScript the throw leaves `collectContent` anyway.
- Editor.CollectContent: the deep copy `JSON.parse(JSON.stringify(...))` is the identity on a value, so the baseline cannot be changed. This is a property of the value model, not a lemma.
- The DOM is not modelled: element lookup, `contenteditable`, the key and paste handlers, and the toolbar. The regions are given as a list of (path, text) pairs in page order.
- `fetch` to the GitHub contents API, base64 with `atob`/`btoa`, `localStorage`, `prompt`, `publish` and `init` are network, browser state and async, and are not modelled. So is the test for the placeholder names `OWNER`/`REPO`, which reads state saved by `loadRepoConfig`.
- `src/main.js` is page behaviour in the browser and is not part of this model.

## Findings

| source | as written | input that shows it | evidently intended | confidence | as-written member | corrected member |
|---|---|---|---|---|---|---|
| src/build.js:35 | `rendered.replace(/\{\{this\}\}/g, String(item))` passes the element text as a replacement string, so `$&`, `` $` ``, `$'` and `$$` in it are expanded | an element `"$&"` with body `{{this}}` renders as `{{this}}` | the element's text, inserted literally | not executed | Scanning.DollarAmpersandEchoesMatch | EachBlocks.ThisTagCopy |
| src/build.js:160 | `html.replace('</head>', jsonLd + '\n</head>')` passes the scripts as a replacement string, so a `$` pattern in a content value that reaches the JSON text is expanded | a `meta.description` of `$&` puts `"description":"$&"` into the scripts' JSON text, and on any page the call as written puts `</head>` where those two characters stood | the scripts, inserted literally before the first `</head>` | not executed | Build.DollarInScriptIsExpanded | Build.InjectAtFirstHead |

=== FILE: base.dfy ===
/** Failure-carrying wrappers shared by every module of the model.
    `Option` stands for a JavaScript value that may be `undefined`;
    `Result` stands for a computation that may throw. */
module Base {

  datatype Option<+T> = None | Some(value: T)

  datatype Result<+T, +E> = Success(value: T) | Failure(error: E) {
    predicate IsFailure() {
      Failure?
    }

    function PropagateFailure<U>(): Result<U, E>
      requires Failure?
    {
      Failure(error)
    }

    function Extract(): T
      requires Success?
    {
      value
    }
  }
}

=== FILE: build.dfy ===
/** The build of src/build.js, without its file reads and writes: the
    structured-data scripts go in front of the first `</head>` of the
    template, then the `{{#each}}` spans are expanded, then the placeholders
    are filled in. */
module Build {
  import opened Base
  import opened Text
  import opened Json
  import opened Scanning
  import opened Placeholders
  import opened Spans
  import opened EachBlocks
  import opened JsonLd

  const HeadClose: string := "</head>"

  /** `html.replace('</head>', text + '\n</head>')` with `text` inserted
      literally: only the first `</head>` is affected, and a page without one
      is left as it is. */
  function InjectBeforeHead(html: string, text: string): (r: string)
    ensures (forall j :: 0 <= j <= |html| ==> !OccursAt(html, HeadClose, j)) ==> r == html
  {
    match IndexOf(html, HeadClose)
    case None => html
    case Some(i) => html[..i] + (text + "\n" + HeadClose) + html[i + |HeadClose|..]
  }

  /** At the first `</head>`, the text and a line break are inserted right
      before it, and everything else of the page stays where it was. */
  lemma InjectAtFirstHead(html: string, text: string, i: nat)
    requires OccursAt(html, HeadClose, i)
    requires forall j :: 0 <= j < i ==> !OccursAt(html, HeadClose, j)
    ensures InjectBeforeHead(html, text) == html[..i] + text + "\n" + html[i..]
  {
    match IndexOf(html, HeadClose)
    case None =>
      assert false;
    case Some(k) =>
      assert k == i;
      assert html[i..] == HeadClose + html[i + |HeadClose|..] by {
        PrefixSplit(html, i + |HeadClose|, |html|);
      }
  }

  /** Cutting the inserted text and line break back out gives the page. */
  lemma InjectRemovable(html: string, text: string, i: nat)
    requires OccursAt(html, HeadClose, i)
    requires forall j :: 0 <= j < i ==> !OccursAt(html, HeadClose, j)
    ensures var r := InjectBeforeHead(html, text);
      |r| == |html| + |text| + 1 && r[..i] + r[i + |text| + 1..] == html
  {
    InjectAtFirstHead(html, text, i);
    var r := InjectBeforeHead(html, text);
    assert r[..i] == html[..i];
    assert r[i + |text| + 1..] == html[i..];
    assert html[..i] + html[i..] == html;
  }

  /** The same call as written: the replacement is a string, so the `$`
      patterns in it are expanded against the match. */
  function InjectBeforeHeadAsWritten(html: string, text: string): string {
    match IndexOf(html, HeadClose)
    case None => html
    case Some(i) =>
      html[..i]
      + Expand(text + "\n" + HeadClose, HeadClose, html[..i], html[i + |HeadClose|..])
      + html[i + |HeadClose|..]
  }

  /** Scripts without a `$` are inserted the same either way. */
  lemma InjectAgreesWithoutDollar(html: string, text: string)
    requires '$' !in text
    ensures InjectBeforeHeadAsWritten(html, text) == InjectBeforeHead(html, text)
  {
    assert '$' !in text + "\n" + HeadClose;
  }

  /** A script whose JSON text holds `$&` (a description that contains it,
      say) gets `</head>` put in place of those two characters: the as-written
      page is five characters longer than the page with the script inserted. */
  lemma DollarInScriptIsExpanded(html: string, i: nat, pre: string, rest: string)
    requires OccursAt(html, HeadClose, i)
    requires forall j :: 0 <= j < i ==> !OccursAt(html, HeadClose, j)
    requires '$' !in pre && '$' !in rest
    ensures InjectBeforeHead(html, pre + "$&" + rest) == html[..i] + (pre + "$&" + rest) + "\n" + html[i..]
    ensures InjectBeforeHeadAsWritten(html, pre + "$&" + rest)
         == html[..i] + (pre + HeadClose + rest) + "\n" + html[i..]
    ensures InjectBeforeHeadAsWritten(html, pre + "$&" + rest) != InjectBeforeHead(html, pre + "$&" + rest)
  {
    var text := pre + "$&" + rest;
    var after := html[i + |HeadClose|..];
    InjectAtFirstHead(html, text, i);
    AsWrittenAt(html, i, text);
    ScriptExpanded(pre, rest, html[..i], after);
    Assoc(pre + HeadClose + rest + "\n", HeadClose, after);
  }

  /** The call as written at the first `</head>`, found at `i`. */
  lemma AsWrittenAt(html: string, i: nat, text: string)
    requires OccursAt(html, HeadClose, i)
    requires forall j :: 0 <= j < i ==> !OccursAt(html, HeadClose, j)
    ensures html[i..] == HeadClose + html[i + |HeadClose|..]
    ensures InjectBeforeHeadAsWritten(html, text)
         == html[..i] + Expand(text + "\n" + HeadClose, HeadClose, html[..i], html[i + |HeadClose|..])
            + html[i + |HeadClose|..]
  {
    FirstHeadAt(html, i);
    PrefixSplit(html, i + |HeadClose|, |html|);
  }

  lemma FirstHeadAt(html: string, i: nat)
    requires OccursAt(html, HeadClose, i)
    requires forall j :: 0 <= j < i ==> !OccursAt(html, HeadClose, j)
    ensures IndexOf(html, HeadClose) == Some(i)
  {
    var r := IndexOf(html, HeadClose);
    assert r.Some?;
    assert !(r.value < i) && !(i < r.value);
  }

  /** The `$&` in a script becomes `</head>`; the rest is literal. */
  lemma ScriptExpanded(pre: string, rest: string, before: string, after: string)
    requires '$' !in pre && '$' !in rest
    ensures Expand((pre + "$&" + rest) + "\n" + HeadClose, HeadClose, before, after)
         == pre + HeadClose + rest + "\n" + HeadClose
  {
    ScriptParts(pre, rest);
    ExpandLiteralPrefix(pre, "$&" + (rest + "\n" + HeadClose), HeadClose, before, after);
    ExpandMatchFirst(rest + "\n" + HeadClose, HeadClose, before, after);
  }

  lemma ScriptParts(pre: string, rest: string)
    requires '$' !in rest
    ensures (pre + "$&" + rest) + "\n" + HeadClose == pre + ("$&" + (rest + "\n" + HeadClose))
    ensures '$' !in rest + "\n" + HeadClose
    ensures pre + (HeadClose + (rest + "\n" + HeadClose)) == pre + HeadClose + rest + "\n" + HeadClose
  {
  }

  /** The whole build of a template with the content document (already
      holding its derived `computed` part). `stringify` writes a record's
      JSON text. It fails exactly when `generateJsonLd` throws. Otherwise the
      page is the template with the scripts put before its `</head>`, then
      20 passes of span expansion, then the placeholder pass; a template with
      no `</head>`, no span and no placeholder comes out unchanged. */
  method BuildPage(template: string, content: JValue, stringify: JValue -> string)
    returns (r: Result<string, LdError>)
    ensures r.Failure? <==> Throws(content)
    ensures r.Success? ==>
      && GenerateJsonLd(content).Success?
      && r.value == Process(Passes(InjectBeforeHead(template, ScriptsText(GenerateJsonLd(content).value, stringify)),
                                   content, MaxPasses), content)
    ensures r.Success? && (forall j :: 0 <= j <= |template| ==> !OccursAt(template, HeadClose, j))
            && !HasBlock(template) && NoToken(template)
            ==> r.value == template
  {
    ThrowsIff(content);
    var records :- GenerateJsonLd(content);
    var html := InjectBeforeHead(template, ScriptsText(records, stringify));
    html := ProcessEachBlocks(html, content);
    r := Success(Process(html, content));
  }
}

=== FILE: each_blocks.dfy ===
/** `processEachBlocks` (src/build.js): rewrites every span into one copy
    of its body per element of the array its path resolves to, and repeats
    whole-document passes while a span is left, at most 20 times. */
module EachBlocks {
  import opened Base
  import opened Text
  import opened Json
  import opened Paths
  import opened Scanning
  import opened Placeholders
  import opened Spans

  const MaxPasses: nat := 20

  // ---------------------------------------------------------------------
  // rendering one span

  /** One copy of the body for the element `item` at position `index`: first
      `{{this}}` (only for a scalar or null element), then `{{this.p}}`
      (resolved against the element), then `{{@index}}`. Each step scans the
      output of the one before. */
  function RenderCopy(inner: string, item: JValue, index: nat): string {
    var withThis := if IsContainer(item) then inner else ReplaceAll(inner, ThisTag, ToStr(item));
    var withFields := Scan(withThis, ThisFieldMatcher(item));
    ReplaceAll(withFields, IndexTag, Decimal(index))
  }

  const ThisTag: string := "{{this}}"

  const IndexTag: string := "{{@index}}"

  /** A copy is made in three stages; knowing the outcome of each gives the copy. */
  lemma CopyStages(inner: string, item: JValue, index: nat, withThis: string, withFields: string)
    requires IsContainer(item) ==> withThis == inner
    requires !IsContainer(item) ==> withThis == ReplaceAll(inner, ThisTag, ToStr(item))
    requires Scan(withThis, ThisFieldMatcher(item)) == withFields
    ensures RenderCopy(inner, item, index) == ReplaceAll(withFields, IndexTag, Decimal(index))
  {
  }

  /** The `{{this.p}}` pattern: a placeholder token whose path starts with
      "this." and has at least one more character. */
  function ThisFieldMatcher(item: JValue): (m: Matcher)
    ensures Sound(m)
  {
    s => match TokenAt(s)
      case Some(t) =>
        if |t.path| > 5 && t.path[..5] == "this." then
          Some(Hit(t.len, TextOrEmpty(Resolve(item, t.path[5..]))))
        else None
      case None => None
  }

  // ---------------------------------------------------------------------
  // a body as text and tags

  /** A body cut into pieces: text, `{{@index}}`, `{{this}}`, `{{this.p}}`,
      and any other tag (`{{site.name}}`, `{{#each y}}`, `{{/each}}`), which a
      copy keeps for the later passes. */
  datatype Piece = Plain(text: string) | IndexPiece | ThisPiece | FieldPiece(path: string) | Other(tag: string)

  /** Every '{' is followed, inside the text, by another character: the text
      holds no "{{" and does not end in '{', so no tag starts in it. */
  predicate LoneBraces(t: string) {
    forall i :: 0 <= i < |t| && t[i] == '{' ==> i + 1 < |t| && t[i + 1] != '{'
  }

  /** `a` and `b` differ at some position both have. */
  predicate Differs(a: string, b: string) {
    exists k :: 0 <= k < |a| && k < |b| && a[k] != b[k]
  }

  /** A tag the copy does not fill in: "{{", no further '{', and neither
      `{{this}}`, `{{@index}}` nor the start of a `{{this.p}}`. */
  predicate ForeignTag(tag: string) {
    && OpensTag(tag)
    && Differs(tag, ThisTag) && Differs(tag, IndexTag) && Differs(tag, "{{this.")
  }

  /** Text pieces hold no tag, field paths are paths the placeholder pattern
      accepts and other tags are foreign, so the pieces are exactly the tags
      of the body. */
  predicate ValidPiece(pc: Piece) {
    match pc
    case Plain(t) => LoneBraces(t)
    case FieldPiece(p) => IsFieldPath(p)
    case Other(tag) => ForeignTag(tag)
    case _ => true
  }

  function FieldTag(p: string): string {
    "{{this." + p + "}}"
  }

  /** The text of a piece once the first `stage` steps of a copy are made:
      0 is the body as written, 1 after `{{this}}`, 2 after `{{this.p}}`,
      3 the finished copy. */
  function PieceText(pc: Piece, item: JValue, index: nat, stage: nat): string {
    match pc
    case Plain(t) => t
    case ThisPiece => if stage >= 1 && !IsContainer(item) then ToStr(item) else ThisTag
    case FieldPiece(p) => if stage >= 2 then TextOrEmpty(Resolve(item, p)) else FieldTag(p)
    case IndexPiece => if stage >= 3 then Decimal(index) else IndexTag
    case Other(tag) => tag
  }

  function Texts(ps: seq<Piece>, item: JValue, index: nat, stage: nat): string {
    if |ps| == 0 then "" else PieceText(ps[0], item, index, stage) + Texts(ps[1..], item, index, stage)
  }

  /** The body the pieces spell out. */
  function Body(ps: seq<Piece>): string {
    Texts(ps, JNull, 0, 0)
  }

  /** Reference definition of a copy, piece by piece: text and other tags as
      they are, `{{@index}}` as the position in decimal, `{{this}}` as the
      element's text (kept for an object or array element), `{{this.p}}` as
      the text of what `p` resolves to inside the element. */
  function Filled(ps: seq<Piece>, item: JValue, index: nat): string {
    Texts(ps, item, index, 3)
  }

  /** The value a tag inserts holds no tag, so no later step finds one in it. */
  predicate Settles(pc: Piece, item: JValue) {
    && (pc.ThisPiece? && !IsContainer(item) ==> LoneBraces(ToStr(item)))
    && (pc.FieldPiece? ==> LoneBraces(TextOrEmpty(Resolve(item, pc.path))))
  }

  /** The pieces are a body's tags, and every value they insert settles. */
  predicate Fillable(ps: seq<Piece>, item: JValue) {
    forall i :: 0 <= i < |ps| ==> ValidPiece(ps[i]) && Settles(ps[i], item)
  }

  /** Every `{{this}}`, `{{this.p}}` and `{{@index}}` of a body is filled in,
      wherever it stands and however often it occurs, and the text and the
      other tags between them are kept: a copy is `Filled`. The inserted
      values must hold no tag (one that does is scanned again by the later
      steps, see `InsertedTagRescanned`). */
  lemma BodyCopy(ps: seq<Piece>, item: JValue, index: nat)
    requires Fillable(ps, item)
    ensures RenderCopy(Body(ps), item, index) == Filled(ps, item, index)
  {
    TextsAgree(ps, JNull, 0, 0, item, index, 0);
    if IsContainer(item) {
      TextsAgree(ps, item, index, 0, item, index, 1);
    } else {
      ThisStage(ps, item, index);
    }
    FieldStage(ps, item, index);
    IndexStage(ps, item, index);
    CopyStages(Body(ps), item, index, Texts(ps, item, index, 1), Texts(ps, item, index, 2));
  }

  /** Inserted text is scanned by the later steps: an element whose text is
      `{{@index}}`, put in for `{{this}}`, comes out as the position, not as
      the element's text. So the copy differs from `Filled` once an inserted
      value holds a tag. */
  lemma InsertedTagRescanned(index: nat)
    ensures RenderCopy(ThisTag, JStr(IndexTag), index) == Decimal(index)
    ensures Filled([ThisPiece], JStr(IndexTag), index) == IndexTag
    ensures Decimal(index) != IndexTag
  {
    RescanSteps(JStr(IndexTag), index);
    FilledAlone(ThisPiece, JStr(IndexTag), index);
    DigitsNotTag(Decimal(index));
  }

  lemma FilledAlone(pc: Piece, item: JValue, index: nat)
    ensures Filled([pc], item, index) == PieceText(pc, item, index, 3)
  {
    OnePiece(pc, item, index, 3);
  }

  lemma DigitsNotTag(d: string)
    requires |d| >= 1 && AllDigits(d)
    ensures d != IndexTag
  {
    assert IsDigit(d[0]);
  }

  lemma RescanSteps(item: JValue, index: nat)
    requires item == JStr(IndexTag)
    ensures RenderCopy(ThisTag, item, index) == Decimal(index)
  {
    WholeReplaced(ThisTag, IndexTag);
    IndexTagAlone(item);
    WholeReplaced(IndexTag, Decimal(index));
    CopyStages(ThisTag, item, index, IndexTag, IndexTag);
  }

  lemma WholeReplaced(pat: string, w: string)
    requires |pat| > 0
    ensures ReplaceAll(pat, pat, w) == w
  {
    assert pat + "" == pat && w + "" == w;
    ReplaceAllFront(pat, "", w);
    ReplaceAllAbsent("", pat, w);
  }

  lemma IndexTagAlone(item: JValue)
    ensures Scan(IndexTag, ThisFieldMatcher(item)) == IndexTag
  {
    assert IndexTag + "" == IndexTag;
    IndexTagNotField("", item);
  }

  /** A body without a tag: every copy of it is the body itself. */
  lemma TagFreeCopy(inner: string, item: JValue, index: nat)
    requires LoneBraces(inner)
    ensures RenderCopy(inner, item, index) == inner
  {
    var ps := [Plain(inner)];
    OnePiece(Plain(inner), JNull, 0, 0);
    OnePiece(Plain(inner), item, index, 3);
    BodyCopy(ps, item, index);
  }

  /** `{{@index}}` renders as the element's position in decimal, with the text
      around it kept. */
  lemma IndexTagCopy(u: string, v: string, item: JValue, index: nat)
    requires LoneBraces(u) && LoneBraces(v)
    ensures RenderCopy(u + IndexTag + v, item, index) == u + Decimal(index) + v
  {
    OneTag(u, IndexPiece, v, item, index);
  }

  /** `{{this}}` renders as the text of a scalar or null element, and is left
      in place for an object or array element; the text around it is kept. */
  lemma ThisTagCopy(u: string, v: string, item: JValue, index: nat)
    requires LoneBraces(u) && LoneBraces(v)
    ensures !IsContainer(item) && LoneBraces(ToStr(item)) ==>
      RenderCopy(u + ThisTag + v, item, index) == u + ToStr(item) + v
    ensures IsContainer(item) ==> RenderCopy(u + ThisTag + v, item, index) == u + ThisTag + v
  {
    if IsContainer(item) || LoneBraces(ToStr(item)) {
      OneTag(u, ThisPiece, v, item, index);
    }
  }

  /** `{{this.p}}` renders as the text of what `p` resolves to inside the
      element, "" when that is missing or null; the text around it is kept. */
  lemma FieldTagCopy(u: string, p: string, v: string, item: JValue, index: nat)
    requires LoneBraces(u) && LoneBraces(v) && IsFieldPath(p)
    requires LoneBraces(TextOrEmpty(Resolve(item, p)))
    ensures RenderCopy(u + FieldTag(p) + v, item, index) == u + TextOrEmpty(Resolve(item, p)) + v
  {
    OneTag(u, FieldPiece(p), v, item, index);
  }

  /** A field tag and an index tag with text around them: both are filled in
      and the text is kept. */
  lemma FieldIndexCopy(u: string, p: string, m: string, v: string, item: JValue, index: nat)
    requires LoneBraces(u) && LoneBraces(m) && LoneBraces(v) && IsFieldPath(p)
    requires LoneBraces(TextOrEmpty(Resolve(item, p)))
    ensures RenderCopy(u + FieldTag(p) + m + IndexTag + v, item, index)
         == u + TextOrEmpty(Resolve(item, p)) + m + Decimal(index) + v
  {
    TwoTags(u, FieldPiece(p), m, IndexPiece, v, item, index);
  }

  /** A tag the copy does not fill in is kept, with the text around it. */
  lemma OtherTagCopy(u: string, tag: string, v: string, item: JValue, index: nat)
    requires LoneBraces(u) && LoneBraces(v) && ForeignTag(tag)
    ensures RenderCopy(u + tag + v, item, index) == u + tag + v
  {
    OneTag(u, Other(tag), v, item, index);
  }

  /** A placeholder of the whole document, such as `{{site.name}}`, is a
      foreign tag whenever its path is not `this` and does not start with
      `this.`: the copy leaves it for `processPlaceholders`. */
  lemma PlaceholderForeign(p: string)
    requires IsFieldPath(p) && p != "this" && !(|p| >= 5 && p[..5] == "this.")
    ensures ForeignTag("{{" + p + "}}")
  {
    var tag := "{{" + p + "}}";
    assert forall i :: 2 <= i < |p| + 2 ==> tag[i] == p[i - 2];
    assert tag[2] == p[0] && tag[|p| + 2] == '}';
    if |p| == 4 {
      SomeDifference(p, "this");
    }
    if exists j :: 0 <= j < |p| && j < 4 && p[j] != "this"[j] {
      var j :| 0 <= j < |p| && j < 4 && p[j] != "this"[j];
      assert tag[j + 2] == p[j];
    } else if |p| < 4 {
      assert tag[|p| + 2] != ThisTag[|p| + 2];
      assert tag[|p| + 2] != "{{this."[|p| + 2];
    } else {
      assert tag[6] == p[4];
    }
  }

  /** Sequences of one length that are not equal differ at some position. */
  lemma SomeDifference(a: string, b: string)
    requires |a| == |b| && a != b
    ensures exists j :: 0 <= j < |a| && a[j] != b[j]
  {
  }

  /** The opener and the closer of a span nested in the body, with any white
      space after `#each`, are foreign tags: the copy keeps them for the next
      pass. */
  lemma SpanTagsForeign(b: Block)
    requires '{' !in b.ws && '{' !in b.path
    ensures ForeignTag(b.Head()) && ForeignTag(Close)
  {
    var head := b.Head();
    assert head == Open + (b.ws + b.path + "}}");
    assert head[2] == '#' && Close[2] == '/';
    assert forall i :: 7 <= i < |head| ==> head[i] == (b.ws + b.path + "}}")[i - 7];
  }

  /** The list-item body `<li>{{this.title}} #{{@index}}</li>`. */
  lemma TitleAndIndexCopy(item: JValue, index: nat)
    requires LoneBraces(TextOrEmpty(Resolve(item, "title")))
    ensures RenderCopy("<li>{{this.title}} #{{@index}}</li>", item, index)
         == "<li>" + TextOrEmpty(Resolve(item, "title")) + " #" + Decimal(index) + "</li>"
  {
    assert IsFieldPath("title");
    NoBraceLone("<li>");
    NoBraceLone(" #");
    NoBraceLone("</li>");
    TitleBody();
    FieldIndexCopy("<li>", "title", " #", "</li>", item, index);
  }

  lemma TitleBody()
    ensures "<li>" + FieldTag("title") + " #" + IndexTag + "</li>" == "<li>{{this.title}} #{{@index}}</li>"
  {
  }

  /** Text without a '{' holds no tag. */
  lemma NoBraceLone(t: string)
    requires '{' !in t
    ensures LoneBraces(t)
  {
  }

  /** One tag between two texts without a tag. */
  lemma OneTag(u: string, pc: Piece, v: string, item: JValue, index: nat)
    requires LoneBraces(u) && LoneBraces(v) && ValidPiece(pc) && Settles(pc, item)
    ensures RenderCopy(u + PieceText(pc, JNull, 0, 0) + v, item, index)
         == u + PieceText(pc, item, index, 3) + v
  {
    var ps := [Plain(u), pc, Plain(v)];
    ThreePieces(u, pc, v, JNull, 0, 0);
    ThreePieces(u, pc, v, item, index, 3);
    assert Fillable(ps, item);
    BodyCopy(ps, item, index);
  }

  /** Two tags between three texts without a tag. */
  lemma TwoTags(u: string, a: Piece, m: string, b: Piece, v: string, item: JValue, index: nat)
    requires LoneBraces(u) && LoneBraces(m) && LoneBraces(v)
    requires ValidPiece(a) && Settles(a, item) && ValidPiece(b) && Settles(b, item)
    ensures RenderCopy(u + PieceText(a, JNull, 0, 0) + m + PieceText(b, JNull, 0, 0) + v, item, index)
         == u + PieceText(a, item, index, 3) + m + PieceText(b, item, index, 3) + v
  {
    var ps := [Plain(u), a, Plain(m), b, Plain(v)];
    FivePieces(u, a, m, b, v, JNull, 0, 0);
    FivePieces(u, a, m, b, v, item, index, 3);
    assert Fillable(ps, item);
    BodyCopy(ps, item, index);
  }

  lemma OnePiece(pc: Piece, item: JValue, index: nat, stage: nat)
    ensures Texts([pc], item, index, stage) == PieceText(pc, item, index, stage)
  {
    assert [pc][1..] == [];
    assert PieceText(pc, item, index, stage) + "" == PieceText(pc, item, index, stage);
  }

  lemma ThreePieces(u: string, pc: Piece, v: string, item: JValue, index: nat, stage: nat)
    ensures Texts([Plain(u), pc, Plain(v)], item, index, stage) == u + PieceText(pc, item, index, stage) + v
  {
    var ps := [Plain(u), pc, Plain(v)];
    assert ps[1..] == [pc, Plain(v)] && ps[1..][1..] == [Plain(v)];
    OnePiece(Plain(v), item, index, stage);
  }

  lemma FivePieces(u: string, a: Piece, m: string, b: Piece, v: string, item: JValue, index: nat, stage: nat)
    ensures Texts([Plain(u), a, Plain(m), b, Plain(v)], item, index, stage)
         == u + PieceText(a, item, index, stage) + m + PieceText(b, item, index, stage) + v
  {
    var ps := [Plain(u), a, Plain(m), b, Plain(v)];
    assert ps[1..][1..] == [Plain(m), b, Plain(v)];
    ThreePieces(m, b, v, item, index, stage);
    Regroup(u, PieceText(a, item, index, stage), m, PieceText(b, item, index, stage), v);
  }

  lemma Regroup(a: string, b: string, c: string, d: string, e: string)
    ensures a + (b + (c + d + e)) == a + b + c + d + e
  {
    Assoc(a + b, c + d, e);
    Assoc(a + b, c, d);
    Assoc(a, b, c + d + e);
  }

  /** Pieces whose texts agree one by one give the same text. */
  lemma {:induction false} TextsAgree(ps: seq<Piece>, a: JValue, i: nat, s: nat, b: JValue, j: nat, t: nat)
    requires forall k :: 0 <= k < |ps| ==> PieceText(ps[k], a, i, s) == PieceText(ps[k], b, j, t)
    ensures Texts(ps, a, i, s) == Texts(ps, b, j, t)
  {
    if |ps| > 0 {
      TextsAgree(ps[1..], a, i, s, b, j, t);
    }
  }

  /** The `{{this}}` step on a body, for a scalar or null element. */
  lemma {:induction false} ThisStage(ps: seq<Piece>, item: JValue, index: nat)
    requires !IsContainer(item)
    requires forall i :: 0 <= i < |ps| ==> ValidPiece(ps[i])
    ensures ReplaceAll(Texts(ps, item, index, 0), ThisTag, ToStr(item)) == Texts(ps, item, index, 1)
  {
    if |ps| == 0 {
      ReplaceAllAbsent("", ThisTag, ToStr(item));
    } else {
      TextsFront(ps, item, index, 0);
      TextsFront(ps, item, index, 1);
      ThisFront(ps[0], Texts(ps[1..], item, index, 0), item, index);
      ThisStage(ps[1..], item, index);
    }
  }

  /** The `{{this.p}}` step on a body. */
  lemma {:induction false} FieldStage(ps: seq<Piece>, item: JValue, index: nat)
    requires Fillable(ps, item)
    ensures Scan(Texts(ps, item, index, 1), ThisFieldMatcher(item)) == Texts(ps, item, index, 2)
  {
    if |ps| > 0 {
      TextsFront(ps, item, index, 1);
      TextsFront(ps, item, index, 2);
      FillableTail(ps, item);
      FieldFront(ps[0], Texts(ps[1..], item, index, 1), item, index);
      FieldStage(ps[1..], item, index);
    }
  }

  /** The `{{@index}}` step on a body. */
  lemma {:induction false} IndexStage(ps: seq<Piece>, item: JValue, index: nat)
    requires Fillable(ps, item)
    ensures ReplaceAll(Texts(ps, item, index, 2), IndexTag, Decimal(index)) == Texts(ps, item, index, 3)
  {
    if |ps| == 0 {
      ReplaceAllAbsent("", IndexTag, Decimal(index));
    } else {
      TextsFront(ps, item, index, 2);
      TextsFront(ps, item, index, 3);
      FillableTail(ps, item);
      IndexFront(ps[0], Texts(ps[1..], item, index, 2), item, index);
      IndexStage(ps[1..], item, index);
    }
  }

  lemma TextsFront(ps: seq<Piece>, item: JValue, index: nat, stage: nat)
    requires |ps| > 0
    ensures Texts(ps, item, index, stage) == PieceText(ps[0], item, index, stage) + Texts(ps[1..], item, index, stage)
  {
  }

  lemma FillableTail(ps: seq<Piece>, item: JValue)
    requires |ps| > 0 && Fillable(ps, item)
    ensures ValidPiece(ps[0]) && Settles(ps[0], item) && Fillable(ps[1..], item)
  {
  }

  lemma ThisFront(pc: Piece, rest: string, item: JValue, index: nat)
    requires ValidPiece(pc) && !IsContainer(item)
    ensures ReplaceAll(PieceText(pc, item, index, 0) + rest, ThisTag, ToStr(item))
         == PieceText(pc, item, index, 1) + ReplaceAll(rest, ThisTag, ToStr(item))
  {
    var w := ToStr(item);
    match pc
    case Plain(t) => BraceFreeKept(t, rest, ThisTag, w);
    case ThisPiece => ReplaceAllFront(ThisTag, rest, w);
    case IndexPiece => OtherTagKept(IndexTag, rest, ThisTag, w, 2);
    case FieldPiece(p) =>
      FieldTagShape(p);
      OtherTagKept(FieldTag(p), rest, ThisTag, w, 6);
    case Other(tag) =>
      var k :| 0 <= k < |tag| && k < |ThisTag| && tag[k] != ThisTag[k];
      OtherTagKept(tag, rest, ThisTag, w, k);
  }

  lemma FieldFront(pc: Piece, rest: string, item: JValue, index: nat)
    requires ValidPiece(pc) && Settles(pc, item)
    ensures Scan(PieceText(pc, item, index, 1) + rest, ThisFieldMatcher(item))
         == PieceText(pc, item, index, 2) + Scan(rest, ThisFieldMatcher(item))
  {
    match pc
    case Plain(t) => BraceFreeScanned(t, rest, item);
    case ThisPiece =>
      if IsContainer(item) {
        ThisTagNotField(rest, item);
      } else {
        BraceFreeScanned(ToStr(item), rest, item);
      }
    case IndexPiece => IndexTagNotField(rest, item);
    case FieldPiece(p) => FieldTagFilled(p, rest, item);
    case Other(tag) =>
      ForeignNotField(tag, rest, item);
      OtherTagScanned(tag, rest, item);
  }

  /** A foreign tag does not start a `{{this.p}}` token, whatever follows it. */
  lemma ForeignNotField(tag: string, rest: string, item: JValue)
    requires ForeignTag(tag)
    ensures ThisFieldMatcher(item)(tag + rest).None?
  {
    var s := tag + rest;
    var k :| 0 <= k < |tag| && k < 7 && tag[k] != "{{this."[k];
    assert s[k] == tag[k];
    FieldTokenStart(s, k);
  }

  /** A token whose path starts with "this." spells "{{this." at the front. */
  lemma FieldTokenStart(s: string, k: nat)
    requires k < 7
    ensures (&& TokenAt(s).Some? && |TokenAt(s).value.path| > 5
             && TokenAt(s).value.path[..5] == "this.") ==> s[k] == "{{this."[k]
  {
    TokenAtSpec(s);
    if TokenAt(s).Some? && |TokenAt(s).value.path| > 5 && TokenAt(s).value.path[..5] == "this." {
      var t := TokenAt(s).value;
      assert s[..t.len][k] == ("{{" + t.path + "}}")[k];
      if k >= 2 {
        assert t.path[k - 2] == t.path[..5][k - 2];
      }
    }
  }

  lemma ThisTagNotField(rest: string, item: JValue)
    ensures Scan(ThisTag + rest, ThisFieldMatcher(item)) == ThisTag + Scan(rest, ThisFieldMatcher(item))
  {
    TokenRecognised("this", rest);
    assert ThisTag + rest == "{{" + "this" + "}}" + rest;
    OtherTagScanned(ThisTag, rest, item);
  }

  lemma IndexTagNotField(rest: string, item: JValue)
    ensures Scan(IndexTag + rest, ThisFieldMatcher(item)) == IndexTag + Scan(rest, ThisFieldMatcher(item))
  {
    var s := IndexTag + rest;
    assert s[2] == '@';
    assert PathEnd(s, 2) == 2;
    OtherTagScanned(IndexTag, rest, item);
  }

  lemma FieldTagFilled(p: string, rest: string, item: JValue)
    requires IsFieldPath(p)
    ensures Scan(FieldTag(p) + rest, ThisFieldMatcher(item))
         == TextOrEmpty(Resolve(item, p)) + Scan(rest, ThisFieldMatcher(item))
  {
    FieldTagShape(p);
    var s := FieldTag(p) + rest;
    TokenRecognised("this." + p, rest);
    assert s[|p| + 9..] == rest;
    ScanHitAtFront(s, ThisFieldMatcher(item));
  }

  lemma IndexFront(pc: Piece, rest: string, item: JValue, index: nat)
    requires ValidPiece(pc) && Settles(pc, item)
    ensures ReplaceAll(PieceText(pc, item, index, 2) + rest, IndexTag, Decimal(index))
         == PieceText(pc, item, index, 3) + ReplaceAll(rest, IndexTag, Decimal(index))
  {
    var w := Decimal(index);
    if pc.IndexPiece? {
      ReplaceAllFront(IndexTag, rest, w);
    } else if pc.ThisPiece? && IsContainer(item) {
      OtherTagKept(ThisTag, rest, IndexTag, w, 2);
    } else if pc.Other? {
      var tag := pc.tag;
      var k :| 0 <= k < |tag| && k < |IndexTag| && tag[k] != IndexTag[k];
      OtherTagKept(tag, rest, IndexTag, w, k);
    } else {
      BraceFreeKept(PieceText(pc, item, index, 2), rest, IndexTag, w);
    }
  }

  /** "{{", then no further '{': the shape of every tag. */
  predicate OpensTag(tag: string) {
    |tag| >= 3 && tag[0] == '{' && tag[1] == '{' && forall i :: 2 <= i < |tag| ==> tag[i] != '{'
  }

  /** `{{this.p}}` is a tag, and is the placeholder token with path `this.p`. */
  lemma FieldTagShape(p: string)
    requires IsFieldPath(p)
    ensures OpensTag(FieldTag(p)) && |FieldTag(p)| == |p| + 9
    ensures FieldTag(p)[2] == 't' && FieldTag(p)[6] == '.'
    ensures FieldTag(p) == "{{" + ("this." + p) + "}}"
    ensures IsFieldPath("this." + p) && ("this." + p)[5..] == p
  {
    var path := "this." + p;
    assert forall k :: 5 <= k < |path| ==> path[k] == p[k - 5];
    assert forall k :: 2 <= k < |path| + 2 ==> FieldTag(p)[k] == path[k - 2];
  }

  /** A literal pattern does not match where one of its characters differs. */
  lemma LiteralMiss(s: string, pat: string, w: string, j: nat)
    requires j < |pat| && j < |s| && s[j] != pat[j]
    ensures Literal(pat, w)(s).None?
  {
  }

  /** Text without a tag in front of the rest is kept by a replacement of a tag. */
  lemma BraceFreeKept(t: string, rest: string, pat: string, w: string)
    requires LoneBraces(t) && |pat| > 1 && pat[0] == '{' && pat[1] == '{'
    ensures ReplaceAll(t + rest, pat, w) == t + ReplaceAll(rest, pat, w)
  {
    LiteralSound(pat, w);
    var s := t + rest;
    forall i | 0 <= i < |t|
      ensures Literal(pat, w)(s[i..]).None?
    {
      assert s[i..][0] == t[i];
      if t[i] == '{' {
        assert s[i..][1] == t[i + 1];
        LiteralMiss(s[i..], pat, w, 1);
      } else {
        LiteralMiss(s[i..], pat, w, 0);
      }
    }
    ScanVerbatimPrefix(t, rest, Literal(pat, w));
  }

  /** A tag in front of the rest is kept by the replacement of another tag,
      which differs from it at position `k`. */
  lemma OtherTagKept(tag: string, rest: string, pat: string, w: string, k: nat)
    requires OpensTag(tag) && OpensTag(pat)
    requires k < |tag| && k < |pat| && tag[k] != pat[k]
    ensures ReplaceAll(tag + rest, pat, w) == tag + ReplaceAll(rest, pat, w)
  {
    LiteralSound(pat, w);
    var s := tag + rest;
    forall i | 0 <= i < |tag|
      ensures Literal(pat, w)(s[i..]).None?
    {
      if i == 0 {
        assert s[0..] == s;
        LiteralMiss(s, pat, w, k);
      } else if i == 1 {
        assert s[1..][1] == tag[2];
        LiteralMiss(s[1..], pat, w, 1);
      } else {
        assert s[i..][0] == tag[i];
        LiteralMiss(s[i..], pat, w, 0);
      }
    }
    ScanVerbatimPrefix(tag, rest, Literal(pat, w));
  }

  /** Text without a tag holds no `{{this.p}}` and is kept. */
  lemma BraceFreeScanned(t: string, rest: string, item: JValue)
    requires LoneBraces(t)
    ensures Scan(t + rest, ThisFieldMatcher(item)) == t + Scan(rest, ThisFieldMatcher(item))
  {
    var s := t + rest;
    forall i | 0 <= i < |t|
      ensures ThisFieldMatcher(item)(s[i..]).None?
    {
      assert s[i..][0] == t[i];
      if t[i] == '{' {
        assert s[i..][1] == t[i + 1];
      }
      NoFieldAt(s[i..], item);
    }
    ScanVerbatimPrefix(t, rest, ThisFieldMatcher(item));
  }

  /** No `{{this.p}}` starts where one of the first two characters is not '{'. */
  lemma NoFieldAt(x: string, item: JValue)
    requires |x| > 0 && (x[0] != '{' || (|x| > 1 && x[1] != '{'))
    ensures ThisFieldMatcher(item)(x).None?
  {
    assert TokenAt(x).None?;
  }

  /** A tag that is not a `{{this.p}}` at its front is kept by the field step. */
  lemma OtherTagScanned(tag: string, rest: string, item: JValue)
    requires OpensTag(tag) && ThisFieldMatcher(item)(tag + rest).None?
    ensures Scan(tag + rest, ThisFieldMatcher(item)) == tag + Scan(rest, ThisFieldMatcher(item))
  {
    var s := tag + rest;
    forall i | 0 <= i < |tag|
      ensures ThisFieldMatcher(item)(s[i..]).None?
    {
      if i == 0 {
        assert s[0..] == s;
      } else if i == 1 {
        assert s[1..][1] == tag[2];
        NoFieldAt(s[1..], item);
      } else {
        assert s[i..][0] == tag[i];
        NoFieldAt(s[i..], item);
      }
    }
    ScanVerbatimPrefix(tag, rest, ThisFieldMatcher(item));
  }

  /** The copies for `items`, numbered from `start`, concatenated in order. */
  function RenderItems(inner: string, items: seq<JValue>, start: nat): string
    decreases |items|
  {
    if |items| == 0 then ""
    else RenderCopy(inner, items[0], start) + RenderItems(inner, items[1..], start + 1)
  }

  /** What one span renders to: nothing unless its path resolves to an array. */
  function RenderBlock(path: string, inner: string, data: JValue): (r: string)
    ensures !(Resolve(data, path).Some? && Resolve(data, path).value.JArr?) ==> r == ""
  {
    match Resolve(data, path)
    case Some(JArr(items)) => RenderItems(inner, items, 0)
    case _ => ""
  }

  function Concat(parts: seq<string>): string {
    if |parts| == 0 then "" else parts[0] + Concat(parts[1..])
  }

  /** Reference definition of a block's output: `parts` lists, for every
      element in order, the copy of the body for element i with index
      start + i. */
  ghost predicate AreCopies(parts: seq<string>, inner: string, items: seq<JValue>, start: nat) {
    && |parts| == |items|
    && forall i :: 0 <= i < |items| ==> parts[i] == RenderCopy(inner, items[i], start + i)
  }

  /** An array of N elements gives exactly its N copies, concatenated in
      element order. */
  lemma {:induction false} RenderItemsAreCopies(inner: string, items: seq<JValue>, start: nat, parts: seq<string>)
    requires AreCopies(parts, inner, items, start)
    ensures RenderItems(inner, items, start) == Concat(parts)
    decreases |items|
  {
    if |items| > 0 {
      assert parts[0] == RenderCopy(inner, items[0], start);
      assert AreCopies(parts[1..], inner, items[1..], start + 1) by {
        forall i | 0 <= i < |items| - 1
          ensures parts[1..][i] == RenderCopy(inner, items[1..][i], start + 1 + i)
        {
          assert parts[1..][i] == parts[i + 1];
          assert items[1..][i] == items[i + 1];
        }
      }
      RenderItemsAreCopies(inner, items[1..], start + 1, parts[1..]);
    }
  }

  /** A span whose path resolves to an array renders as the copies of its
      body, one per element, in order. */
  lemma ArrayBlock(path: string, inner: string, data: JValue, items: seq<JValue>, parts: seq<string>)
    requires Resolve(data, path) == Some(JArr(items))
    requires AreCopies(parts, inner, items, 0)
    ensures RenderBlock(path, inner, data) == Concat(parts)
  {
    RenderItemsAreCopies(inner, items, 0, parts);
  }

  /** A span over an array whose body is made of tags and text renders as
      the filled copies, one per element in order, copy i filled with
      element i and index i. */
  lemma ArrayBlockFilled(path: string, ps: seq<Piece>, data: JValue, items: seq<JValue>)
    requires Resolve(data, path) == Some(JArr(items))
    requires forall i :: 0 <= i < |items| ==> Fillable(ps, items[i])
    ensures RenderBlock(path, Body(ps), data)
         == Concat(seq(|items|, i requires 0 <= i < |items| => Filled(ps, items[i], i)))
  {
    var parts := seq(|items|, i requires 0 <= i < |items| => Filled(ps, items[i], i));
    forall i | 0 <= i < |items|
      ensures parts[i] == RenderCopy(Body(ps), items[i], 0 + i)
    {
      BodyCopy(ps, items[i], i);
    }
    ArrayBlock(path, Body(ps), data, items, parts);
  }

  // ---------------------------------------------------------------------
  // one pass and the loop

  function BlockMatcher(data: JValue): (m: Matcher)
    ensures Sound(m)
  {
    s => match BlockAt(s)
      case Some(b) => Some(Hit(|b.Text()|, RenderBlock(b.path, b.inner, data)))
      case None => None
  }

  /** One `result.replace(eachRegex, …)` pass. Text without a span comes back
      unchanged. */
  function ExpandPass(s: string, data: JValue): (r: string)
    ensures !HasBlock(s) ==> r == s
  {
    HasBlockIff(s);
    Scan(s, BlockMatcher(data))
  }

  /** A span at the front becomes its rendering and the pass resumes after
      its closer, without rescanning the rendering. */
  lemma SpanAtFront(b: Block, rest: string, data: JValue)
    requires WellFormed(b)
    ensures ExpandPass(b.Text() + rest, data) == RenderBlock(b.path, b.inner, data) + ExpandPass(rest, data)
  {
    BlockRecognised(b, rest);
    var s := b.Text() + rest;
    assert s[|b.Text()|..] == rest;
    ScanHitAtFront(s, BlockMatcher(data));
  }

  /** The text after `k` passes. */
  function Passes(s: string, data: JValue, k: nat): string {
    Iterate(x => ExpandPass(x, data), s, k)
  }

  /** `f` applied `k` times. */
  function Iterate<T>(f: T -> T, x: T, k: nat): T {
    if k == 0 then x else f(Iterate(f, x, k - 1))
  }

  lemma NextPass(s: string, data: JValue, k: nat)
    ensures Passes(s, data, k + 1) == ExpandPass(Passes(s, data, k), data)
  {
  }

  /** `processEachBlocks(html, data)`: passes are taken while a span is left
      and fewer than 20 have run. The result is the text after some number
      k <= 20 of passes, and fewer than 20 passes means no span is left;
      stopping early loses nothing, so it is the text after exactly 20
      passes. Input without a span is returned as is. */
  method ProcessEachBlocks(html: string, data: JValue) returns (result: string)
    ensures exists k :: 0 <= k <= MaxPasses && result == Passes(html, data, k)
                     && (k < MaxPasses ==> !HasBlock(result))
    ensures result == Passes(html, data, MaxPasses)
    ensures !HasBlock(html) ==> result == html
  {
    result := html;
    var safety := 0;
    while HasBlock(result) && safety < MaxPasses
      invariant 0 <= safety <= MaxPasses
      invariant result == Passes(html, data, safety)
      decreases MaxPasses - safety
    {
      NextPass(html, data, safety);
      safety := safety + 1;
      result := ExpandPass(result, data);
    }
    if safety < MaxPasses {
      PassesSettle(html, data, safety, MaxPasses - safety);
    }
    if !HasBlock(html) {
      SettledStays(html, data, safety);
    }
  }

  /** Once no span is left, further passes change nothing: stopping at the
      first such pass loses nothing. */
  lemma PassesSettle(html: string, data: JValue, k: nat, j: nat)
    requires !HasBlock(Passes(html, data, k))
    ensures Passes(html, data, k + j) == Passes(html, data, k)
  {
    IterateSettles(x => ExpandPass(x, data), html, k, j);
  }

  /** Input without a span is a fixed point of every number of passes. */
  lemma SettledStays(html: string, data: JValue, k: nat)
    requires !HasBlock(html)
    ensures Passes(html, data, k) == html
  {
    var f := x => ExpandPass(x, data);
    assert f(html) == html;
    IterateFixed(f, html, k);
  }

  lemma {:induction false} IterateFixed<T>(f: T -> T, x: T, k: nat)
    requires f(x) == x
    ensures Iterate(f, x, k) == x
    decreases k
  {
    if k > 0 {
      IterateFixed(f, x, k - 1);
    }
  }

  lemma {:induction false} IterateSettles<T>(f: T -> T, x: T, k: nat, j: nat)
    requires f(Iterate(f, x, k)) == Iterate(f, x, k)
    ensures Iterate(f, x, k + j) == Iterate(f, x, k)
    decreases j
  {
    if j > 0 {
      IterateSettles(f, x, k, j - 1);
    }
  }
}

=== FILE: editor.dfy ===
/** The pure parts of the inline editor (src/editor.js): writing a value at
    a dot-separated path, building the content document from the edited
    regions of the page, and reading the owner/repository text typed in
    when no repository is configured. Reading a path is `Paths.Resolve`:
    `getByPath` is the same reduce as the build's `resolve`. */
module Editor {
  import opened Base
  import opened Text
  import opened Json
  import opened Paths

  // ---------------------------------------------------------------------
  // setByPath

  /** Why a write at a path does not produce a document.
      `TypeError`: the walk reaches null, a boolean, a number or a string and
      writes a property of it (or reads one of null), which throws in strict
      mode.
      `SparseIndex`: an index past the end of an array, which would leave
      holes. `NonIndexKey`: a key on an array that is not an index, which
      would add a property the JSON text of the array does not carry. */
  datatype SetError =
    | TypeError(key: string)
    | SparseIndex(key: string)
    | NonIndexKey(key: string)

  /** `/^\d+$/`: a key of one or more decimal digits. */
  predicate IsNumeric(key: string) {
    |key| >= 1 && AllDigits(key)
  }

  /** The container created for a missing intermediate: an array when the
      key that follows is numeric, an object otherwise. */
  function Fresh(next: string): JValue {
    if IsNumeric(next) then JArr([]) else JObj(map[])
  }

  /** The slot `key` of `cur` that a write goes to: `Some` of the value now
      there, `None` when the slot is free (an absent object key, or the index
      just past the end of an array). */
  function Slot(cur: JValue, key: string): (r: Result<Option<JValue>, SetError>)
    ensures r.Success? ==> IsContainer(cur) && r.value == Member(cur, key)
    ensures !IsContainer(cur) ==> r == Failure(TypeError(key))
    ensures Member(cur, key).Some? ==> r == Success(Member(cur, key))
  {
    match cur
    case JObj(fields) => Success(if key in fields then Some(fields[key]) else None)
    case JArr(items) =>
      if !IsIndex(key) then Failure(NonIndexKey(key))
      else if IndexValue(key) < |items| then Success(Some(items[IndexValue(key)]))
      else if IndexValue(key) == |items| then Success(None)
      else Failure(SparseIndex(key))
    case _ => Failure(TypeError(key))
  }

  /** `cur[key] = v` on a slot that `Slot` accepts. */
  function Put(cur: JValue, key: string, v: JValue): (r: JValue)
    requires Slot(cur, key).Success?
    ensures Member(r, key) == Some(v)
    ensures IsContainer(r) && r.JArr? == cur.JArr?
  {
    match cur
    case JObj(fields) => JObj(fields[key := v])
    case JArr(items) =>
      if IndexValue(key) < |items| then JArr(items[IndexValue(key) := v]) else JArr(items + [v])
  }

  /** A write at one key leaves every other key as it was. */
  lemma PutFrame(cur: JValue, key: string, v: JValue, other: string)
    requires Slot(cur, key).Success? && other != key
    ensures Member(Put(cur, key, v), other) == Member(cur, other)
  {
    if cur.JArr? && IsIndex(other) && IndexValue(other) == IndexValue(key) {
      IndexInjective(other, key);
    }
  }

  /** Writing back the value a slot already holds changes nothing. */
  lemma PutSame(cur: JValue, key: string)
    requires Member(cur, key).Some?
    ensures Put(cur, key, Member(cur, key).value) == cur
  {
    match cur
    case JObj(fields) =>
      assert fields[key := fields[key]] == fields;
    case JArr(items) =>
      assert items[IndexValue(key) := items[IndexValue(key)]] == items;
  }

  /** `setByPath` on the keys of the path: the loop that walks to the last
      key, creating missing intermediates, then the final assignment. The
      document is a value here, so the written copy is the result. */
  function SetIn(cur: JValue, keys: seq<string>, value: JValue): (r: Result<JValue, SetError>)
    requires |keys| >= 1
    ensures r.Success? ==> IsContainer(r.value) && r.value.JArr? == cur.JArr?
    decreases |keys|
  {
    var slot :- Slot(cur, keys[0]);
    if |keys| == 1 then Success(Put(cur, keys[0], value))
    else
      var child := if slot.Some? then slot.value else Fresh(keys[1]);
      var written :- SetIn(child, keys[1..], value);
      Success(Put(cur, keys[0], written))
  }

  /** `setByPath(obj, path, value)`: on success, reading the path back gives
      the value written. */
  function SetByPath(obj: JValue, path: string, value: JValue): (r: Result<JValue, SetError>)
    ensures r.Success? ==> Resolve(r.value, path) == Some(value)
  {
    ReadBack(obj, Keys(path), value);
    SetIn(obj, Keys(path), value)
  }

  /** Reading the keys back after a successful write gives the value written. */
  lemma {:induction false} ReadBack(cur: JValue, keys: seq<string>, value: JValue)
    requires |keys| >= 1
    ensures SetIn(cur, keys, value).Success? ==> Walk(SetIn(cur, keys, value).value, keys) == Some(value)
    decreases |keys|
  {
    if SetIn(cur, keys, value).Success? {
      var r := SetIn(cur, keys, value).value;
      if |keys| == 1 {
        assert keys[1..] == [];
      } else {
        var slot := Slot(cur, keys[0]).value;
        var child := if slot.Some? then slot.value else Fresh(keys[1]);
        ReadBack(child, keys[1..], value);
      }
    }
  }

  /** Neither key list is a prefix of the other: they part at some key. */
  predicate Diverges(a: seq<string>, b: seq<string>)
    decreases |a|
  {
    |a| >= 1 && |b| >= 1 && (a[0] != b[0] || Diverges(a[1..], b[1..]))
  }

  /** `a` is a proper prefix of `b`. */
  predicate Below(a: seq<string>, b: seq<string>) {
    |a| < |b| && b[..|a|] == a
  }

  /** Two key lists are equal, or one is a proper prefix of the other, or
      they diverge. */
  lemma {:induction false} Compare(a: seq<string>, b: seq<string>)
    ensures a == b || Below(a, b) || Below(b, a) || Diverges(a, b)
    decreases |a|
  {
    if |a| >= 1 && |b| >= 1 && a[0] == b[0] {
      Compare(a[1..], b[1..]);
      if a[1..] == b[1..] {
        assert a == [a[0]] + a[1..] && b == [b[0]] + b[1..];
      } else if Below(a[1..], b[1..]) {
        assert b[..|a|] == [b[0]] + b[1..][..|a| - 1];
        assert a == [a[0]] + a[1..];
      } else if Below(b[1..], a[1..]) {
        assert a[..|b|] == [a[0]] + a[1..][..|b| - 1];
        assert b == [b[0]] + b[1..];
      }
    } else if |a| == 0 || |b| == 0 {
      assert a == [] ==> Below(a, b) || a == b;
      assert b == [] ==> Below(b, a) || a == b;
    }
  }

  /** A write leaves every key list that diverges from its keys as it was:
      existing intermediates are kept, with all their other members. */
  lemma {:induction false} Frame(cur: JValue, keys: seq<string>, value: JValue, other: seq<string>)
    requires |keys| >= 1 && SetIn(cur, keys, value).Success?
    requires Diverges(keys, other)
    ensures Walk(SetIn(cur, keys, value).value, other) == Walk(cur, other)
    decreases |keys|
  {
    var r := SetIn(cur, keys, value).value;
    var slot := Slot(cur, keys[0]).value;
    if keys[0] != other[0] {
      if |keys| == 1 {
        PutFrame(cur, keys[0], value, other[0]);
      } else {
        var child := if slot.Some? then slot.value else Fresh(keys[1]);
        PutFrame(cur, keys[0], SetIn(child, keys[1..], value).value, other[0]);
      }
    } else {
      var child := if slot.Some? then slot.value else Fresh(keys[1]);
      Frame(child, keys[1..], value, other[1..]);
      if slot.None? {
        assert Walk(child, other[1..]) == None;
      }
    }
  }

  /** Along the keys of a successful write, every node of the result is a
      container. Where the document already had a node, it was a container
      of the same kind, and is reused; where it had none, the node was
      created as an array exactly when the key that follows is numeric. */
  lemma {:induction false} Along(cur: JValue, keys: seq<string>, value: JValue, i: nat)
    requires i < |keys| && SetIn(cur, keys, value).Success?
    ensures var after := Walk(SetIn(cur, keys, value).value, keys[..i]);
      && after.Some? && IsContainer(after.value)
      && match Walk(cur, keys[..i])
         case Some(before) => IsContainer(before) && before.JArr? == after.value.JArr?
         case None => after.value.JArr? == IsNumeric(keys[i])
    decreases i
  {
    var r := SetIn(cur, keys, value).value;
    if i == 0 {
      assert keys[..0] == [];
    } else {
      var slot := Slot(cur, keys[0]).value;
      var child := if slot.Some? then slot.value else Fresh(keys[1]);
      var written := SetIn(child, keys[1..], value).value;
      Along(child, keys[1..], value, i - 1);
      WalkFront(r, keys, i);
      WalkFront(cur, keys, i);
      if slot.None? && i > 1 {
        assert Walk(child, keys[1..][..i - 1]) == None;
      }
    }
  }

  /** Walking the first `i` keys is one member access, then the rest. */
  lemma WalkFront(v: JValue, keys: seq<string>, i: nat)
    requires 1 <= i <= |keys| && !v.JNull?
    ensures Walk(v, keys[..i])
         == match Member(v, keys[0]) case None => None case Some(c) => Walk(c, keys[1..][..i - 1])
  {
    assert keys[..i][0] == keys[0];
    assert keys[..i][1..] == keys[1..][..i - 1];
  }

  /** A path whose nodes all exist can always be written. */
  lemma {:induction false} SetExisting(cur: JValue, keys: seq<string>, value: JValue)
    requires |keys| >= 1 && Walk(cur, keys).Some?
    ensures SetIn(cur, keys, value).Success?
    decreases |keys|
  {
    if |keys| > 1 {
      SetExisting(Member(cur, keys[0]).value, keys[1..], value);
    }
  }

  /** Writing the value a path already leads to gives the document back. */
  lemma {:induction false} SetSame(cur: JValue, keys: seq<string>, value: JValue)
    requires |keys| >= 1 && Walk(cur, keys) == Some(value)
    ensures SetIn(cur, keys, value) == Success(cur)
    decreases |keys|
  {
    var child := Member(cur, keys[0]).value;
    if |keys| == 1 {
      assert keys[1..] == [];
    } else {
      SetSame(child, keys[1..], value);
    }
    PutSame(cur, keys[0]);
  }

  /** A walk that meets null, a boolean, a number or a string before the
      last key throws, at the key that follows that node. */
  lemma {:induction false} ThroughScalar(cur: JValue, keys: seq<string>, value: JValue, i: nat)
    requires i < |keys|
    requires Walk(cur, keys[..i]).Some? && !IsContainer(Walk(cur, keys[..i]).value)
    ensures SetIn(cur, keys, value) == Failure(TypeError(keys[i]))
    decreases i
  {
    if i == 0 {
      assert keys[..0] == [];
    } else {
      WalkFront(cur, keys, i);
      ThroughScalar(Member(cur, keys[0]).value, keys[1..], value, i - 1);
    }
  }

  /** Whether the write can take its step at `key` from the node the walk
      has reached: an existing node must be an object, or an array given an
      index no larger than its length; a node the write creates is empty, so
      a numeric key into it (which makes it an array) must be "0". */
  predicate StepAllowed(node: Option<JValue>, key: string) {
    match node
    case Some(n) => IsContainer(n) && (n.JArr? ==> IsIndex(key) && IndexValue(key) <= |n.items|)
    case None => IsNumeric(key) ==> key == "0"
  }

  /** Every step of the walk along `keys` is allowed, judged on the nodes the
      document has before the write. */
  predicate Writable(cur: JValue, keys: seq<string>) {
    forall k :: 0 <= k < |keys| ==> StepAllowed(Walk(cur, keys[..k]), keys[k])
  }

  /** A write succeeds exactly when the path is writable: it fails only on a
      node that is not a container, a key on an array that is not an index,
      an index past the end of an array, or a numeric key other than "0"
      into an array it has just created. In particular a write through
      missing object nodes always succeeds. */
  lemma {:induction false} WriteSucceeds(cur: JValue, keys: seq<string>, value: JValue)
    requires |keys| >= 1
    ensures SetIn(cur, keys, value).Success? <==> Writable(cur, keys)
    decreases |keys|
  {
    assert keys[..0] == [];
    assert StepAllowed(Some(cur), keys[0]) <==> Slot(cur, keys[0]).Success?;
    if Slot(cur, keys[0]).Success? && |keys| > 1 {
      var rest := keys[1..];
      match Member(cur, keys[0])
      case Some(c) =>
        WriteSucceeds(c, rest, value);
        WritableBelow(cur, keys, c);
      case None =>
        WriteSucceeds(Fresh(keys[1]), rest, value);
        WritableFresh(cur, keys);
    }
  }

  /** Below an existing member, the steps are those of the member's own walk. */
  lemma WritableBelow(cur: JValue, keys: seq<string>, c: JValue)
    requires |keys| > 1 && Slot(cur, keys[0]).Success? && Member(cur, keys[0]) == Some(c)
    ensures Writable(cur, keys) <==> Writable(c, keys[1..])
  {
    assert keys[..0] == [];
    forall k | 1 <= k < |keys|
      ensures Walk(cur, keys[..k]) == Walk(c, keys[1..][..k - 1])
    {
      WalkFront(cur, keys, k);
    }
    if Writable(c, keys[1..]) {
      forall k | 0 <= k < |keys|
        ensures StepAllowed(Walk(cur, keys[..k]), keys[k])
      {
        if k > 0 {
          assert keys[k] == keys[1..][k - 1];
        }
      }
    }
    if Writable(cur, keys) {
      forall k | 0 <= k < |keys| - 1
        ensures StepAllowed(Walk(c, keys[1..][..k]), keys[1..][k])
      {
        assert StepAllowed(Walk(cur, keys[..k + 1]), keys[k + 1]);
      }
    }
  }

  /** Below a missing member, every step is into a node the write creates. */
  lemma WritableFresh(cur: JValue, keys: seq<string>)
    requires |keys| > 1 && Slot(cur, keys[0]).Success? && Member(cur, keys[0]).None?
    ensures Writable(cur, keys) <==> Writable(Fresh(keys[1]), keys[1..])
  {
    var rest := keys[1..];
    var f := Fresh(keys[1]);
    assert keys[..0] == [] && rest[..0] == [];
    ZeroKey(keys[1]);
    assert StepAllowed(Walk(f, rest[..0]), rest[0]) <==> StepAllowed(None, keys[1]);
    forall k | 1 <= k < |keys|
      ensures Walk(cur, keys[..k]) == None
    {
      WalkFront(cur, keys, k);
    }
    forall k | 1 <= k < |rest|
      ensures Walk(f, rest[..k]) == None
    {
      WalkFront(f, rest, k);
    }
    if Writable(f, rest) {
      forall k | 0 <= k < |keys|
        ensures StepAllowed(Walk(cur, keys[..k]), keys[k])
      {
        if k > 0 {
          assert keys[k] == rest[k - 1];
          assert StepAllowed(Walk(f, rest[..k - 1]), rest[k - 1]);
        }
      }
    }
    if Writable(cur, keys) {
      forall k | 0 <= k < |rest|
        ensures StepAllowed(Walk(f, rest[..k]), rest[k])
      {
        assert StepAllowed(Walk(cur, keys[..k + 1]), keys[k + 1]);
      }
    }
  }

  /** Of the numeric keys, only "0" names a slot of an empty array. */
  lemma ZeroKey(key: string)
    ensures IsNumeric(key) ==> (IsIndex(key) && IndexValue(key) <= 0 <==> key == "0")
  {
    if IsNumeric(key) && IsIndex(key) && IndexValue(key) == 0 {
      assert Decimal(0) == "0";
    }
    if key == "0" {
      DecimalIsIndex(0);
      assert Decimal(0) == "0";
    }
  }

  /** `setByPath(content, "a.b", …)` on an empty document creates `a` and
      succeeds. */
  lemma NewNestedKey(value: JValue)
    ensures SetByPath(JObj(map[]), "a.b", value).Success?
  {
    var keys := ["a", "b"];
    assert Keys("a.b") == keys by {
      assert keys[1..] == ["b"];
      assert Join(keys, '.') == "a.b";
      SplitJoin(keys, '.');
    }
    WriteSucceeds(JObj(map[]), keys, value);
    assert keys[..1] == ["a"];
    assert Walk(JObj(map[]), keys[..1]) == None;
    assert !IsNumeric("b") && IsContainer(JObj(map[]));
  }

  // ---------------------------------------------------------------------
  // collectContent

  /** An element of the page marked `data-content`: its path and its text. */
  datatype Region = Region(path: string, text: string)

  /** Whether a region's text is written back: the baseline holds a string
      at its path, or nothing. */
  predicate Editable(original: JValue, path: string) {
    match Resolve(original, path)
    case None => true
    case Some(v) => v.JStr?
  }

  /** The loop over the regions, in page order, writing into `content`. */
  function CollectFrom(original: JValue, content: JValue, regions: seq<Region>): Result<JValue, SetError>
    decreases |regions|
  {
    if |regions| == 0 then Success(content)
    else
      var next :-
        if Editable(original, regions[0].path) then SetByPath(content, regions[0].path, JStr(Trim(regions[0].text)))
        else Success(content);
      CollectFrom(original, next, regions[1..])
  }

  /** `collectContent()`: a copy of the baseline with the trimmed text of
      every editable region written at its path. The baseline is a value, so
      it is left as it was. */
  function CollectContent(original: JValue, regions: seq<Region>): Result<JValue, SetError> {
    CollectFrom(original, original, regions)
  }

  /** Reference: the trimmed text of the last region at `path`, or `dflt`
      when no region is there. */
  function LastText(regions: seq<Region>, path: string, dflt: string): string
    decreases |regions|
  {
    if |regions| == 0 then dflt
    else if regions[|regions| - 1].path == path then Trim(regions[|regions| - 1].text)
    else LastText(regions[..|regions| - 1], path, dflt)
  }

  /** When every region shows the string its path already holds, the
      content comes out equal to the baseline. */
  lemma {:induction false} CollectUnchanged(original: JValue, regions: seq<Region>)
    requires forall i :: 0 <= i < |regions| ==> Resolve(original, regions[i].path) == Some(JStr(Trim(regions[i].text)))
    ensures CollectContent(original, regions) == Success(original)
  {
    SameFrom(original, regions);
  }

  lemma {:induction false} SameFrom(original: JValue, regions: seq<Region>)
    requires forall i :: 0 <= i < |regions| ==> Resolve(original, regions[i].path) == Some(JStr(Trim(regions[i].text)))
    ensures CollectFrom(original, original, regions) == Success(original)
    decreases |regions|
  {
    if |regions| > 0 {
      SetSame(original, Keys(regions[0].path), JStr(Trim(regions[0].text)));
      SameFrom(original, regions[1..]);
    }
  }

  /** The node `after` stands where `before` stood: the same value for null,
      booleans, numbers and strings, a container of the same kind otherwise. */
  predicate SameKind(before: JValue, after: JValue) {
    if IsContainer(before) then IsContainer(after) && after.JArr? == before.JArr? else after == before
  }

  /** A node on the way to a value the baseline holds is a container, so a
      region there is not editable. */
  lemma AboveIsContainer(original: JValue, above: seq<string>, keys: seq<string>)
    requires Below(above, keys) && Walk(original, keys).Some?
    ensures Walk(original, above).Some? && IsContainer(Walk(original, above).value)
  {
    var rest := keys[|above|..];
    assert keys == above + rest;
    WalkAppend(original, above, rest);
  }

  /** One write of an editable region keeps a baseline node that is not a
      string as it was (a container keeps its kind). */
  lemma KeepStep(original: JValue, c: JValue, q: string, t: string, p: string, c2: JValue)
    requires Editable(original, q) && SetByPath(c, q, JStr(t)) == Success(c2)
    requires Resolve(original, p).Some? && !Resolve(original, p).value.JStr?
    requires Resolve(c, p).Some? && SameKind(Resolve(original, p).value, Resolve(c, p).value)
    ensures Resolve(c2, p).Some? && SameKind(Resolve(original, p).value, Resolve(c2, p).value)
  {
    var kq, kp := Keys(q), Keys(p);
    Compare(kq, kp);
    if kq == kp {
      assert false;
    } else if Below(kq, kp) {
      AboveIsContainer(original, kq, kp);
    } else if Below(kp, kq) {
      Along(c, kq, JStr(t), |kp|);
    } else {
      Frame(c, kq, JStr(t), kp);
    }
  }

  /** A baseline value that is not a string is never replaced by a region's
      text: null, booleans and numbers come out as they were, and objects
      and arrays stay objects and arrays. */
  lemma {:induction false} CollectKeeps(original: JValue, content: JValue, regions: seq<Region>, p: string)
    requires CollectFrom(original, content, regions).Success?
    requires Resolve(original, p).Some? && !Resolve(original, p).value.JStr?
    requires Resolve(content, p).Some? && SameKind(Resolve(original, p).value, Resolve(content, p).value)
    ensures var r := CollectFrom(original, content, regions).value;
      Resolve(r, p).Some? && SameKind(Resolve(original, p).value, Resolve(r, p).value)
    decreases |regions|
  {
    if |regions| > 0 {
      var q := regions[0].path;
      if Editable(original, q) {
        var c2 := SetByPath(content, q, JStr(Trim(regions[0].text))).value;
        KeepStep(original, content, q, Trim(regions[0].text), p, c2);
        CollectKeeps(original, c2, regions[1..], p);
      } else {
        CollectKeeps(original, content, regions[1..], p);
      }
    }
  }

  /** The same, from the baseline. */
  lemma NonStringKept(original: JValue, regions: seq<Region>, p: string)
    requires CollectContent(original, regions).Success?
    requires Resolve(original, p).Some? && !Resolve(original, p).value.JStr?
    ensures var r := CollectContent(original, regions).value;
      Resolve(r, p).Some? && SameKind(Resolve(original, p).value, Resolve(r, p).value)
  {
    CollectKeeps(original, original, regions, p);
  }

  /** Walking the regions from the front: the last text at `path` is the
      one the later regions leave, starting from the first region's. */
  lemma {:induction false} LastTextFront(regions: seq<Region>, path: string, dflt: string)
    requires |regions| >= 1
    ensures LastText(regions, path, dflt)
         == LastText(regions[1..], path, if regions[0].path == path then Trim(regions[0].text) else dflt)
    decreases |regions|
  {
    if |regions| > 1 {
      var init := regions[..|regions| - 1];
      assert init[1..] == regions[1..][..|regions[1..]| - 1];
      LastTextFront(init, path, dflt);
    }
  }

  /** One write of an editable region puts its text at its own path and
      leaves a string of the baseline at any other path as it was. */
  lemma StringStep(original: JValue, c: JValue, q: string, t: string, p: string, s: string, c2: JValue)
    requires Editable(original, q) && SetByPath(c, q, JStr(t)) == Success(c2)
    requires Resolve(original, p).Some? && Resolve(original, p).value.JStr?
    requires Resolve(c, p) == Some(JStr(s))
    ensures Resolve(c2, p) == Some(JStr(if q == p then t else s))
  {
    var kq, kp := Keys(q), Keys(p);
    Compare(kq, kp);
    if kq == kp {
      SplitInjective(q, p, '.');
    } else if Below(kq, kp) {
      AboveIsContainer(original, kq, kp);
    } else if Below(kp, kq) {
      Along(c, kq, JStr(t), |kp|);
    } else {
      Frame(c, kq, JStr(t), kp);
    }
  }

  lemma {:induction false} StringsFrom(original: JValue, content: JValue, regions: seq<Region>, p: string, s: string)
    requires CollectFrom(original, content, regions).Success?
    requires Resolve(original, p).Some? && Resolve(original, p).value.JStr?
    requires Resolve(content, p) == Some(JStr(s))
    ensures Resolve(CollectFrom(original, content, regions).value, p) == Some(JStr(LastText(regions, p, s)))
    decreases |regions|
  {
    if |regions| > 0 {
      var q := regions[0].path;
      LastTextFront(regions, p, s);
      if Editable(original, q) {
        var t := Trim(regions[0].text);
        var c2 := SetByPath(content, q, JStr(t)).value;
        StringStep(original, content, q, t, p, s, c2);
        StringsFrom(original, c2, regions[1..], p, if q == p then t else s);
      } else {
        assert q != p;
        StringsFrom(original, content, regions[1..], p, s);
      }
    }
  }

  /** Where the baseline holds a string, the content holds the trimmed text
      of the last region at that path, or the baseline's string when no
      region is there. */
  lemma StringsEdited(original: JValue, regions: seq<Region>, p: string, s: string)
    requires CollectContent(original, regions).Success?
    requires Resolve(original, p) == Some(JStr(s))
    ensures Resolve(CollectContent(original, regions).value, p) == Some(JStr(LastText(regions, p, s)))
  {
    StringsFrom(original, original, regions, p, s);
  }

  /** The loop over `regions + [r]` is the loop over `regions`, then the
      write of `r` when it is editable. */
  lemma {:induction false} CollectLast(original: JValue, content: JValue, regions: seq<Region>, r: Region)
    ensures CollectFrom(original, content, regions + [r])
         == match CollectFrom(original, content, regions)
            case Failure(e) => Failure(e)
            case Success(c) =>
              if Editable(original, r.path) then SetByPath(c, r.path, JStr(Trim(r.text))) else Success(c)
    decreases |regions|
  {
    if |regions| == 0 {
      assert [] + [r] == [r] && [r][1..] == [];
    } else {
      assert (regions + [r])[0] == regions[0] && (regions + [r])[1..] == regions[1..] + [r];
      var q := regions[0].path;
      if Editable(original, q) {
        var w := SetByPath(content, q, JStr(Trim(regions[0].text)));
        if w.Success? {
          CollectLast(original, w.value, regions[1..], r);
        }
      } else {
        CollectLast(original, content, regions[1..], r);
      }
    }
  }

  /** The last region is written back whenever the baseline holds a string
      at its path or nothing at all: its trimmed text is what the content
      holds there. */
  lemma LastRegionWritten(original: JValue, regions: seq<Region>, p: string, text: string)
    requires |regions| >= 1 && regions[|regions| - 1] == Region(p, text)
    requires Resolve(original, p).None? || Resolve(original, p).value.JStr?
    requires CollectContent(original, regions).Success?
    ensures Resolve(CollectContent(original, regions).value, p) == Some(JStr(Trim(text)))
  {
    var init := regions[..|regions| - 1];
    assert regions == init + [Region(p, text)];
    CollectLast(original, original, init, Region(p, text));
  }

  // ---------------------------------------------------------------------
  // the repository text

  /** The owner/repository text typed in (`None` when the prompt is
      cancelled): rejected unless it holds a '/'; otherwise the owner is the
      trimmed text before the first '/' and the name the trimmed text
      between the first and the second. */
  function ParseRepo(input: Option<string>): (r: Option<(string, string)>)
    ensures r.None? <==> input.None? || '/' !in input.value
  {
    if input.Some? && '/' in input.value then
      var parts := Split(input.value, '/');
      assert |parts| >= 2;
      Some((Trim(parts[0]), Trim(parts[1])))
    else None
  }

  /** Every text with a '/' is the owner part, '/', the name part, then
      nothing or the rest from the second '/'; the parts come out trimmed. */
  lemma RepoOf(a: string, b: string, c: string)
    requires '/' !in a && '/' !in b && (c == [] || c[0] == '/')
    ensures ParseRepo(Some(a + "/" + b + c)) == Some((Trim(a), Trim(b)))
  {
    var s := a + "/" + b + c;
    assert s[|a|] == '/';
    if c == [] {
      assert Join([a, b], '/') == s;
      SplitJoin([a, b], '/');
    } else {
      var more := Split(c[1..], '/');
      var parts := [a, b] + more;
      assert parts[1..] == [b] + more && ([b] + more)[1..] == more;
      assert Join([b] + more, '/') == b + "/" + c[1..];
      assert c == "/" + c[1..];
      assert Join(parts, '/') == s;
      SplitJoin(parts, '/');
    }
  }

  /** An owner and a name without '/' and without surrounding white space
      are read back from "owner/name". */
  lemma RepoRoundTrip(owner: string, name: string)
    requires '/' !in owner && '/' !in name
    requires owner == [] || (!IsSpace(owner[0]) && !IsSpace(owner[|owner| - 1]))
    requires name == [] || (!IsSpace(name[0]) && !IsSpace(name[|name| - 1]))
    ensures ParseRepo(Some(owner + "/" + name)) == Some((owner, name))
  {
    RepoOf(owner, name, []);
    assert owner + "/" + name + [] == owner + "/" + name;
    TrimUnpadded(owner);
    TrimUnpadded(name);
  }
}

=== FILE: json.dfy ===
/** The content document: JSON-shaped values, member access as JavaScript
    performs it on them, and the string and truth values JavaScript gives them. */
module Json {
  import opened Base
  import opened Text

  /** Numbers are integers here; the content document holds no fractions. */
  datatype JValue =
    | JNull
    | JBool(b: bool)
    | JNum(n: int)
    | JStr(s: string)
    | JArr(items: seq<JValue>)
    | JObj(fields: map<string, JValue>)

  predicate IsContainer(v: JValue) {
    v.JArr? || v.JObj?
  }

  /** A property key that names an element of an array: the canonical decimal
      numeral of a number below 2^32 - 1 (so "2" does, "02" and "x" do not). */
  predicate IsIndex(key: string) {
    |key| >= 1 && AllDigits(key) && DigitsValue(key) < 0xFFFF_FFFF && Decimal(DigitsValue(key)) == key
  }

  function IndexValue(key: string): nat
    requires IsIndex(key)
  {
    DigitsValue(key)
  }

  /** The numeral of every small enough number is an index key naming that number. */
  lemma DecimalIsIndex(n: nat)
    requires n < 0xFFFF_FFFF
    ensures IsIndex(Decimal(n)) && IndexValue(Decimal(n)) == n
  {
    DecimalRoundTrip(n);
  }

  /** Distinct index keys name distinct elements. */
  lemma IndexInjective(k1: string, k2: string)
    requires IsIndex(k1) && IsIndex(k2) && IndexValue(k1) == IndexValue(k2)
    ensures k1 == k2
  {
  }

  /** `v[key]` for a `v` that is neither null nor undefined; `None` is
      `undefined`. Looking a key up on a boolean, number or string gives
      `None` in this model. */
  function Member(v: JValue, key: string): Option<JValue> {
    match v
    case JObj(fields) => if key in fields then Some(fields[key]) else None
    case JArr(items) =>
      if IsIndex(key) && IndexValue(key) < |items| then Some(items[IndexValue(key)]) else None
    case _ => None
  }

  /** `String(v)`. */
  function ToStr(v: JValue): string
    decreases v
  {
    match v
    case JNull => "null"
    case JBool(b) => if b then "true" else "false"
    case JNum(n) => if n < 0 then "-" + Decimal(-n) else Decimal(n)
    case JStr(s) => s
    case JArr(items) => JoinItems(items)
    case JObj(_) => "[object Object]"
  }

  /** `Array.prototype.join(",")`, which writes null elements as nothing. */
  function JoinItems(items: seq<JValue>): string
    decreases items
  {
    if |items| == 0 then ""
    else
      var first := if items[0].JNull? then "" else ToStr(items[0]);
      if |items| == 1 then first else first + "," + JoinItems(items[1..])
  }

  /** `val != null ? String(val) : ''`: what a placeholder renders to. */
  function TextOrEmpty(o: Option<JValue>): string {
    match o
    case None => ""
    case Some(JNull) => ""
    case Some(v) => ToStr(v)
  }

  /** JavaScript truthiness of a possibly undefined value. */
  predicate Truthy(o: Option<JValue>) {
    match o
    case None => false
    case Some(JNull) => false
    case Some(JBool(b)) => b
    case Some(JNum(n)) => n != 0
    case Some(JStr(s)) => s != ""
    case Some(_) => true
  }

  /** A number's text reads back as that number. */
  lemma NumberText(n: int)
    ensures n >= 0 ==> AllDigits(ToStr(JNum(n))) && DigitsValue(ToStr(JNum(n))) == n
    ensures n < 0 ==>
      && ToStr(JNum(n))[0] == '-'
      && AllDigits(ToStr(JNum(n))[1..])
      && DigitsValue(ToStr(JNum(n))[1..]) == -n
  {
    if n >= 0 {
      DecimalRoundTrip(n);
    } else {
      DecimalRoundTrip(-n);
      assert ("-" + Decimal(-n))[1..] == Decimal(-n);
    }
  }
}

=== FILE: json_ld.dfy ===
/** `generateJsonLd` (src/build.js): the structured-data records the build
    puts in the page head, in order, and the failures the property reads on
    the way can raise. The records are kept as values; the JSON text
    `JSON.stringify` makes of them is a parameter. */
module JsonLd {
  import opened Base
  import opened Text
  import opened Json
  import opened Paths

  const Context: string := "https://schema.org"
  const SiteUrl: string := "https://andrefurt.github.io/nuno-jorge/"
  const BusinessName: string := "Nuno Jorge \U{2014} Fisiologista do Exerc\U{ED}cio"
  const PersonName: string := "Nuno Jorge"

  /** What makes the generation throw: a property read on null or undefined
      (`path` names the value read from), or `map`/`forEach` called on a
      value that is not an array. */
  datatype LdError = ReadOfMissing(path: string) | NotAnArray(path: string)

  datatype Question = Question(name: Option<JValue>, answer: Option<JValue>)

  /** One structured-data record. Fields hold the values read from the
      content (`None` for `undefined`, which the JSON text leaves out); the
      rest of each record is fixed text. */
  datatype Schema =
    | MedicalBusiness(description: Option<JValue>, telephone: Option<JValue>)
    | Person
    | FaqPage(questions: seq<Question>)
    | Service(name: Option<JValue>, description: Option<JValue>)

  /** null or undefined. */
  predicate Missing(o: Option<JValue>) {
    o.None? || o == Some(JNull)
  }

  /** `o.key`: throws on null or undefined, and is one step of a path walk
      otherwise. */
  function Get(o: Option<JValue>, key: string, at: string): (r: Result<Option<JValue>, LdError>)
    ensures r.Failure? <==> Missing(o)
    ensures r.Failure? ==> r.error == ReadOfMissing(at)
    ensures r.Success? ==> r.value == Step(o, key)
  {
    match o
    case None => Failure(ReadOfMissing(at))
    case Some(JNull) => Failure(ReadOfMissing(at))
    case Some(v) => Success(Member(v, key))
  }

  /** The FAQ question built from one item. */
  function QuestionOf(item: JValue): Question {
    Question(Member(item, "question"), Member(item, "answer"))
  }

  /** The Service record built from one item. */
  function ServiceOf(item: JValue): Schema {
    Service(Member(item, "title"), Member(item, "description"))
  }

  /** `items.map(f)` where `f` reads properties of its item: the first null
      item throws. */
  function Each<T>(items: seq<JValue>, f: JValue -> T, at: string): (r: Result<seq<T>, LdError>)
    ensures r.Failure? <==> exists i :: 0 <= i < |items| && items[i].JNull?
    ensures r.Failure? ==> r.error == ReadOfMissing(at)
    ensures r.Success? ==> |r.value| == |items| && forall i :: 0 <= i < |items| ==> r.value[i] == f(items[i])
    decreases |items|
  {
    if |items| == 0 then Success([])
    else if items[0].JNull? then Failure(ReadOfMissing(at))
    else
      match Each(items[1..], f, at)
      case Failure(e) =>
        assert exists i :: 0 <= i < |items| - 1 && items[1..][i].JNull?;
        Failure(e)
      case Success(rest) => Success([f(items[0])] + rest)
  }

  /** `data.x && data.x.items`, and then the array the section lists. A
      truthy `items` that is not an array throws at `map`/`forEach`. */
  function Section(data: JValue, section: string): (r: Result<Option<seq<JValue>>, LdError>)
    requires !data.JNull?
  {
    var x := Member(data, section);
    if !Truthy(x) then Success(None)
    else
      var items :- Get(x, "items", section);
      if !Truthy(items) then Success(None)
      else match items
        case Some(JArr(xs)) => Success(Some(xs))
        case _ => Failure(NotAnArray(section + ".items"))
  }

  /** `generateJsonLd(data)` as the list of records it serialises: the
      business, the person, the FAQ page when `faq.items` is there, then one
      Service per entry of `services.items`, in order. */
  function GenerateJsonLd(data: JValue): (r: Result<seq<Schema>, LdError>) {
    if data.JNull? then Failure(ReadOfMissing("data"))
    else
    var description :- Get(Member(data, "meta"), "description", "data.meta");
    var phone :- Get(Member(data, "contact"), "phone", "data.contact");
    var faq :- Section(data, "faq");
    var questions :- if faq.Some? then Each(faq.value, QuestionOf, "faq item") else Success([]);
    var services :- Section(data, "services");
    var serviceRecords :- if services.Some? then Each(services.value, ServiceOf, "service") else Success([]);
    var page := if faq.Some? then [FaqPage(questions)] else [];
    Success([MedicalBusiness(description, phone), Person] + page + serviceRecords)
  }

  // ---------------------------------------------------------------------
  // the records as the JSON values they are written as

  /** The `@type` of each record. */
  function TypeName(s: Schema): string {
    match s
    case MedicalBusiness(_, _) => "MedicalBusiness"
    case Person => "Person"
    case FaqPage(_) => "FAQPage"
    case Service(_, _) => "Service"
  }

  /** A property whose value is `undefined` is left out of the JSON text. */
  function Put(m: map<string, JValue>, key: string, o: Option<JValue>): map<string, JValue> {
    if o.Some? then m[key := o.value] else m
  }

  function Typed(t: string): map<string, JValue> {
    map["@context" := JStr(Context), "@type" := JStr(t)]
  }

  function Named(t: string, name: string): JValue {
    JObj(map["@type" := JStr(t), "name" := JStr(name)])
  }

  function QuestionRecord(q: Question): JValue {
    JObj(Put(map["@type" := JStr("Question")], "name", q.name)[
      "acceptedAnswer" := JObj(Put(map["@type" := JStr("Answer")], "text", q.answer))])
  }

  /** The JSON value a record is written as: its `@context` and `@type`,
      the fixed text the build script spells out, and the content values
      that are not `undefined`. */
  function Record(s: Schema): (r: JValue)
    ensures r.JObj? && "@context" in r.fields && "@type" in r.fields
    ensures r.fields["@context"] == JStr(Context) && r.fields["@type"] == JStr(TypeName(s))
  {
    match s
    case MedicalBusiness(description, telephone) =>
      var fixed := Typed("MedicalBusiness")[
        "name" := JStr(BusinessName)][
        "url" := JStr(SiteUrl)][
        "areaServed" := JArr([Named("City", "Porto"), Named("City", "Vila Nova de Gaia")])][
        "address" := JObj(map[
          "@type" := JStr("PostalAddress"),
          "addressLocality" := JStr("Porto"),
          "addressRegion" := JStr("Porto"),
          "addressCountry" := JStr("PT")])];
      JObj(Put(Put(fixed, "description", description), "telephone", telephone))
    case Person =>
      JObj(Typed("Person")[
        "name" := JStr(PersonName)][
        "jobTitle" := JStr("Fisiologista do Exerc\U{ED}cio")][
        "alumniOf" := JArr([
          Named("CollegeOrUniversity", "Faculdade de Desporto da Universidade do Porto"),
          Named("CollegeOrUniversity", "Faculdade de Medicina da Universidade do Porto")])][
        "worksFor" := Named("Organization", "Universidade Fernando Pessoa")][
        "knowsAbout" := JArr([
          JStr("Exerc\U{ED}cio Cl\U{ED}nico"),
          JStr("Oncologia"),
          JStr("Pr\U{E9}-habilita\U{E7}\U{E3}o Cir\U{FA}rgica"),
          JStr("Reabilita\U{E7}\U{E3}o Funcional"),
          JStr("Envelhecimento Ativo")])])
    case FaqPage(questions) =>
      JObj(Typed("FAQPage")[
        "mainEntity" := JArr(seq(|questions|, i requires 0 <= i < |questions| => QuestionRecord(questions[i])))])
    case Service(name, description) =>
      JObj(Put(Put(Typed("Service"), "name", name), "description", description)[
        "provider" := Named("Person", PersonName)][
        "areaServed" := Named("City", "Porto")])
  }

  /** The text `generateJsonLd` returns: one script element per record, with
      the record's JSON text (written by `stringify`) inside, joined by line
      breaks. */
  function ScriptsText(records: seq<Schema>, stringify: JValue -> string): string {
    if |records| == 0 then ""
    else
      var tag := "<script type=\"application/ld+json\">\n" + stringify(Record(records[0])) + "\n</script>";
      if |records| == 1 then tag else tag + "\n" + ScriptsText(records[1..], stringify)
  }

  // ---------------------------------------------------------------------
  // the same, stated over the content document

  /** `data.x && data.x.items` is truthy. */
  predicate Listed(data: JValue, section: string) {
    Truthy(Walk(data, [section])) && Truthy(Walk(data, [section, "items"]))
  }

  /** The entries a listed section holds; none when it is not listed. */
  function Entries(data: JValue, section: string): seq<JValue> {
    if Listed(data, section) then
      match Walk(data, [section, "items"])
      case Some(JArr(xs)) => xs
      case _ => []
    else []
  }

  /** A listed section that cannot be iterated: `items` is not an array, or
      one of its entries is null. */
  predicate BadSection(data: JValue, section: string) {
    && Listed(data, section)
    && match Walk(data, [section, "items"])
       case Some(JArr(xs)) => exists i :: 0 <= i < |xs| && xs[i].JNull?
       case _ => true
  }

  /** When `generateJsonLd` throws. */
  predicate Throws(data: JValue) {
    || Missing(Walk(data, ["meta"]))
    || Missing(Walk(data, ["contact"]))
    || BadSection(data, "faq")
    || BadSection(data, "services")
  }

  /** A section as `Section` reads it is what the walk over the content finds. */
  lemma SectionSpec(data: JValue, section: string)
    requires !data.JNull?
    ensures Section(data, section).Failure? <==> Listed(data, section) && !Walk(data, [section, "items"]).value.JArr?
    ensures Section(data, section).Success? ==>
      (Section(data, section).value.Some? <==> Listed(data, section))
      && (Section(data, section).value.Some? ==> Section(data, section).value.value == Entries(data, section))
  {
    var x := Member(data, section);
    assert Walk(data, [section]) == x by {
      assert [section][1..] == [];
    }
    if x.Some? && !x.value.JNull? {
      assert Walk(data, [section, "items"]) == Member(x.value, "items") by {
        assert [section, "items"][1..] == ["items"];
        assert ["items"][1..] == [];
      }
    }
  }

  /** The generation throws exactly when the content lacks `meta` or
      `contact`, or lists FAQ items or services that cannot be iterated. */
  lemma ThrowsIff(data: JValue)
    ensures GenerateJsonLd(data).Failure? <==> Throws(data)
  {
    WalkOne(data, "meta");
    WalkOne(data, "contact");
    if !data.JNull? {
      SectionSpec(data, "faq");
      SectionSpec(data, "services");
    }
  }

  /** The FAQ page, when the content lists FAQ items. */
  function FaqPart(data: JValue): seq<Schema> {
    if Listed(data, "faq") then [FaqPage(QuestionsOf(Entries(data, "faq")))] else []
  }

  /** The questions of the FAQ page, one per item. */
  function QuestionsOf(items: seq<JValue>): (qs: seq<Question>)
    ensures |qs| == |items| && forall i :: 0 <= i < |items| ==> qs[i] == QuestionOf(items[i])
  {
    seq(|items|, i requires 0 <= i < |items| => QuestionOf(items[i]))
  }

  /** The Service records, one per entry. */
  function ServicesOf(items: seq<JValue>): (ss: seq<Schema>)
    ensures |ss| == |items| && forall i :: 0 <= i < |items| ==> ss[i] == ServiceOf(items[i])
  {
    seq(|items|, i requires 0 <= i < |items| => ServiceOf(items[i]))
  }

  /** What a successful generation returns, read off the content document:
      the business, the person, the FAQ page when FAQ items are listed, and
      one Service per listed service, in order. */
  lemma Generated(data: JValue)
    requires GenerateJsonLd(data).Success?
    ensures GenerateJsonLd(data).value
         == [MedicalBusiness(Walk(data, ["meta", "description"]), Walk(data, ["contact", "phone"])), Person]
            + FaqPart(data) + ServicesOf(Entries(data, "services"))
  {
    assert !data.JNull?;
    SectionSpec(data, "faq");
    SectionSpec(data, "services");
    WalkTwo(data, "meta", "description");
    WalkTwo(data, "contact", "phone");
    var faq := Section(data, "faq").value;
    if faq.Some? {
      assert Each(faq.value, QuestionOf, "faq item").value == QuestionsOf(faq.value);
    }
    var services := Section(data, "services").value;
    if services.Some? {
      assert Each(services.value, ServiceOf, "service").value == ServicesOf(services.value);
    }
  }

  /** On success there are 2 records, one more when the FAQ is listed, and
      one per service: the business first, then the person, then the FAQ
      page. */
  lemma RecordsInOrder(data: JValue)
    requires GenerateJsonLd(data).Success?
    ensures |GenerateJsonLd(data).value| == 2 + (if Listed(data, "faq") then 1 else 0) + |Entries(data, "services")|
    ensures GenerateJsonLd(data).value[0].MedicalBusiness? && GenerateJsonLd(data).value[1] == Person
    ensures Listed(data, "faq") ==> GenerateJsonLd(data).value[2].FaqPage?
  {
    Generated(data);
  }

  lemma WalkOne(data: JValue, key: string)
    ensures Walk(data, [key]) == Step(Some(data), key)
  {
    assert [key][1..] == [];
  }

  lemma WalkTwo(data: JValue, a: string, b: string)
    requires !Missing(Walk(data, [a]))
    ensures Walk(data, [a, b]) == Step(Walk(data, [a]), b)
  {
    assert [a][1..] == [];
    assert [a, b][1..] == [b];
    assert [b][1..] == [];
    var w := Member(data, a).value;
    assert Walk(data, [a]) == Walk(w, []) == Some(w);
    assert Walk(data, [a, b]) == Walk(w, [b]);
    if !w.JNull? {
      match Member(w, b)
      case Some(c) => assert Walk(w, [b]) == Walk(c, []);
      case None =>
    }
  }
}

=== FILE: paths.dfy ===
/** Dot-separated field paths. `resolve` in the build script and `getByPath`
    in the editor are the same expression: split the path on '.', then reduce
    over the keys with `acc != null ? acc[key] : undefined`. */
module Paths {
  import opened Base
  import opened Text
  import opened Json

  /** One step of the reduce. */
  function Step(acc: Option<JValue>, key: string): Option<JValue> {
    match acc
    case None => None
    case Some(JNull) => None
    case Some(v) => Member(v, key)
  }

  /** The reduce over `keys`, left to right, starting from `acc`. */
  function Fold(acc: Option<JValue>, keys: seq<string>): Option<JValue>
    decreases |keys|
  {
    if |keys| == 0 then acc else Fold(Step(acc, keys[0]), keys[1..])
  }

  /** The keys of a field path. */
  function Keys(path: string): (keys: seq<string>)
    ensures |keys| >= 1
    ensures forall i :: 0 <= i < |keys| ==> '.' !in keys[i]
  {
    Split(path, '.')
  }

  /** Reference definition: descend into the document one key at a time,
      stopping at the first missing or null node. */
  function Walk(v: JValue, keys: seq<string>): Option<JValue>
    decreases |keys|
  {
    if |keys| == 0 then Some(v)
    else if v.JNull? then None
    else match Member(v, keys[0])
      case None => None
      case Some(child) => Walk(child, keys[1..])
  }

  /** `resolve(obj, path)` and `getByPath(obj, path)`: the node the path leads
      to, `None` when some step on the way is missing or null. */
  function Resolve(obj: JValue, path: string): (r: Option<JValue>)
    ensures r == Walk(obj, Keys(path))
  {
    FoldIsWalk(obj, Keys(path));
    Fold(Some(obj), Keys(path))
  }

  /** Once the reduce has reached `undefined` it stays there. */
  lemma {:induction false} FoldFromMissing(keys: seq<string>)
    ensures Fold(None, keys) == None
    decreases |keys|
  {
    if |keys| > 0 {
      FoldFromMissing(keys[1..]);
    }
  }

  /** The reduce agrees with the reference descent. */
  lemma {:induction false} FoldIsWalk(v: JValue, keys: seq<string>)
    ensures Fold(Some(v), keys) == Walk(v, keys)
    decreases |keys|
  {
    if |keys| > 0 {
      match Step(Some(v), keys[0])
      case None => FoldFromMissing(keys[1..]);
      case Some(child) => FoldIsWalk(child, keys[1..]);
    }
  }

  /** Reducing over `a + b` is reducing over `a`, then over `b`. */
  lemma {:induction false} FoldAppend(acc: Option<JValue>, a: seq<string>, b: seq<string>)
    ensures Fold(acc, a + b) == Fold(Fold(acc, a), b)
    decreases |a|
  {
    if |a| == 0 {
      assert a + b == b;
    } else {
      assert (a + b)[1..] == a[1..] + b;
      FoldAppend(Step(acc, a[0]), a[1..], b);
    }
  }

  /** Resolution is missing as soon as some proper prefix of the keys leads to
      a missing or null node. */
  lemma ShortCircuit(v: JValue, keys: seq<string>, i: nat)
    requires i < |keys|
    requires Fold(Some(v), keys[..i]) == None || Fold(Some(v), keys[..i]) == Some(JNull)
    ensures Fold(Some(v), keys) == None
  {
    assert keys == keys[..i] + keys[i..];
    FoldAppend(Some(v), keys[..i], keys[i..]);
    var rest := keys[i..];
    assert Fold(Some(v), keys) == Fold(None, rest[1..]);
    FoldFromMissing(rest[1..]);
  }

  /** Resolving a prefix and then the rest of the keys is resolving all of them. */
  lemma WalkAppend(v: JValue, a: seq<string>, b: seq<string>)
    ensures Walk(v, a + b) == (match Walk(v, a) case None => None case Some(w) => Walk(w, b))
  {
    FoldIsWalk(v, a + b);
    FoldAppend(Some(v), a, b);
    FoldIsWalk(v, a);
    match Walk(v, a)
    case None => FoldFromMissing(b);
    case Some(w) => FoldIsWalk(w, b);
  }
}

=== FILE: placeholders.dfy ===
/** `processPlaceholders` (src/build.js): one left-to-right pass that replaces
    every `{{path}}` token, with `path` drawn from `[A-Za-z0-9_.]`, by the
    text of the value the path resolves to in the content document. */
module Placeholders {
  import opened Base
  import opened Text
  import opened Json
  import opened Paths
  import opened Scanning

  /** A path the placeholder pattern `[\w.]+` accepts. */
  predicate IsFieldPath(p: string) {
    |p| >= 1 && forall i :: 0 <= i < |p| ==> IsPathChar(p[i])
  }

  datatype Token = Token(path: string, len: nat)

  /** The `{{path}}` token at the front of `s`, if there is one. */
  function TokenAt(s: string): (t: Option<Token>)
    ensures t.Some? ==> t.value.len == |t.value.path| + 4 <= |s|
  {
    if |s| >= 2 && s[0] == '{' && s[1] == '{' then
      var e := PathEnd(s, 2);
      if e >= 3 && e + 2 <= |s| && s[e] == '}' && s[e + 1] == '}' then
        Some(Token(s[2..e], e + 2))
      else None
    else None
  }

  /** A token found at the front of `s` is "{{", a field path and "}}". */
  lemma TokenAtSpec(s: string)
    ensures TokenAt(s).Some? ==>
      && IsFieldPath(TokenAt(s).value.path)
      && s[..TokenAt(s).value.len] == "{{" + TokenAt(s).value.path + "}}"
  {
    if TokenAt(s).Some? {
      var e := PathEnd(s, 2);
      PathEndSpec(s, 2);
      assert forall i :: 0 <= i < e - 2 ==> s[2..e][i] == s[i + 2];
      assert s[..e + 2] == "{{" + s[2..e] + "}}";
    }
  }

  /** Every well-formed token is recognised, whatever follows it. */
  lemma TokenRecognised(p: string, rest: string)
    requires IsFieldPath(p)
    ensures TokenAt("{{" + p + "}}" + rest) == Some(Token(p, |p| + 4))
  {
    var s := "{{" + p + "}}" + rest;
    assert forall k :: 2 <= k < |p| + 2 ==> s[k] == p[k - 2];
    assert s[|p| + 2] == '}';
    PathEndIs(s, 2, |p| + 2);
    assert s[2..|p| + 2] == p;
  }

  /** The matcher of the placeholder pattern, with the resolved value's text
      as replacement. */
  function FieldMatcher(data: JValue): (m: Matcher)
    ensures Sound(m)
  {
    s => match TokenAt(s)
      case Some(t) => Some(Hit(t.len, TextOrEmpty(Resolve(data, t.path))))
      case None => None
  }

  /** No placeholder token starts anywhere in `s`. */
  ghost predicate NoToken(s: string) {
    forall i :: 0 <= i < |s| ==> TokenAt(s[i..]).None?
  }

  /** `processPlaceholders(html, data)`. Text without tokens is returned unchanged. */
  function Process(html: string, data: JValue): (r: string)
    ensures NoToken(html) ==> r == html
  {
    Scan(html, FieldMatcher(data))
  }

  /** A token becomes the text of its resolved value ("" for missing or
      null), and that text is not scanned again: the scan resumes after the
      token. */
  lemma TokenSubstituted(p: string, rest: string, data: JValue)
    requires IsFieldPath(p)
    ensures Process("{{" + p + "}}" + rest, data)
         == TextOrEmpty(Resolve(data, p)) + Process(rest, data)
  {
    var s := "{{" + p + "}}" + rest;
    TokenRecognised(p, rest);
    assert s[|p| + 4..] == rest;
    ScanHitAtFront(s, FieldMatcher(data));
  }

  /** A prefix in which no token starts is copied verbatim. */
  lemma VerbatimPrefix(u: string, rest: string, data: JValue)
    requires forall i :: 0 <= i < |u| ==> TokenAt((u + rest)[i..]).None?
    ensures Process(u + rest, data) == u + Process(rest, data)
  {
    ScanVerbatimPrefix(u, rest, FieldMatcher(data));
  }

  /** Text that starts with "{{" and a character outside the path alphabet,
      and has no further '{', is never a token and stays verbatim: this
      covers `{{@index}}`, `{{#each p}}` and `{{/each}}`. */
  lemma ForeignTagVerbatim(u: string, rest: string, data: JValue)
    requires |u| >= 3 && u[0] == '{' && u[1] == '{' && !IsPathChar(u[2])
    requires forall i :: 2 <= i < |u| ==> u[i] != '{'
    ensures Process(u + rest, data) == u + Process(rest, data)
  {
    var s := u + rest;
    forall i | 0 <= i < |u|
      ensures TokenAt(s[i..]).None?
    {
      var t := s[i..];
      if i == 0 {
        assert |t| >= 3 && t[2] == u[2];
      } else if i == 1 {
        assert |t| >= 2 && t[1] == u[2];
      } else {
        assert t[0] == u[i];
      }
    }
    VerbatimPrefix(u, rest, data);
  }

  /** No token starts after the front of a text whose only '{' are its
      first two characters. */
  lemma NoTokenPastFront(s: string)
    requires forall i :: 2 <= i < |s| ==> s[i] != '{'
    ensures forall k :: 1 <= k < |s| ==> TokenAt(s[k..]).None?
  {
    forall k | 1 <= k < |s|
      ensures TokenAt(s[k..]).None?
    {
      if k == 1 {
        if |s| >= 3 {
          assert s[k..][1] == s[2];
        }
      } else {
        assert s[k..][0] == s[k];
      }
    }
  }

  /** Text with no two consecutive '{' has no tokens and is returned unchanged. */
  lemma NoDoubleBraceUnchanged(s: string, data: JValue)
    requires forall i :: 0 <= i < |s| - 1 ==> !(s[i] == '{' && s[i + 1] == '{')
    ensures Process(s, data) == s
  {
    forall i | 0 <= i < |s|
      ensures TokenAt(s[i..]).None?
    {
      if |s[i..]| >= 2 {
        assert s[i..][0] == s[i] && s[i..][1] == s[i + 1];
      }
    }
  }
}

=== FILE: scanning.dfy ===
/** Leftmost, non-overlapping scanning: what `String.prototype.replace` does
    with a global regular expression and a replacer function. A `Matcher`
    says whether a match starts at the front of a text, how long it is and
    what it is replaced by; `Scan` walks the text left to right, replaces
    every match and resumes after it, and copies every other character. */
module Scanning {
  import opened Base
  import opened Text

  datatype Hit = Hit(len: nat, out: string)

  type Matcher = string -> Option<Hit>

  /** Every match is non-empty and lies inside the text it was found in. */
  ghost predicate Sound(m: Matcher) {
    forall s :: m(s).Some? ==> 0 < m(s).value.len <= |s|
  }

  /** No match starts anywhere in `s`. */
  ghost predicate NoHitIn(s: string, m: Matcher) {
    forall i :: 0 <= i < |s| ==> m(s[i..]).None?
  }

  /** Whether some match starts in `s` (a global `RegExp.prototype.test`
      started at position 0). */
  function AnyHit(s: string, m: Matcher): (b: bool)
    ensures b <==> exists i :: 0 <= i < |s| && m(s[i..]).Some?
  {
    if |s| == 0 then false
    else if m(s).Some? then
      assert s[0..] == s;
      true
    else
      var b := AnyHit(s[1..], m);
      if b then
        var i :| 0 <= i < |s| - 1 && m(s[1..][i..]).Some?;
        assert s[1..][i..] == s[i + 1..];
        b
      else
        assert forall i :: 1 <= i < |s| ==> s[i..] == s[1..][i - 1..];
        b
  }

  /** One global replace pass. Text in which no match starts comes back unchanged. */
  function Scan(s: string, m: Matcher): (r: string)
    requires Sound(m)
    ensures NoHitIn(s, m) ==> r == s
    decreases |s|
  {
    if |s| == 0 then ""
    else
      assert s[0..] == s;
      assert forall i :: 0 <= i < |s| - 1 ==> s[1..][i..] == s[i + 1..];
      match m(s)
      case Some(h) => h.out + Scan(s[h.len..], m)
      case None => [s[0]] + Scan(s[1..], m)
  }

  /** A prefix in which no match starts is copied verbatim, and the scan then
      carries on with the rest as if the prefix were not there. */
  lemma {:induction false} ScanVerbatimPrefix(u: string, rest: string, m: Matcher)
    requires Sound(m)
    requires forall i :: 0 <= i < |u| ==> m((u + rest)[i..]).None?
    ensures Scan(u + rest, m) == u + Scan(rest, m)
  {
    if |u| == 0 {
      assert u + rest == rest;
    } else {
      var s := u + rest;
      var t := u[1..] + rest;
      assert s[1..] == t;
      assert Scan(s, m) == [u[0]] + Scan(t, m) by {
        assert s[0..] == s;
        ScanMissAtFront(s, m);
      }
      assert Scan(t, m) == u[1..] + Scan(rest, m) by {
        forall i | 0 <= i < |u| - 1
          ensures m(t[i..]).None?
        {
          SuffixOfSuffix(s, 1, i);
        }
        ScanVerbatimPrefix(u[1..], rest, m);
      }
      Assoc([u[0]], u[1..], Scan(rest, m));
      HeadTail(u);
    }
  }

  /** Where no match starts, the first character is copied. */
  lemma ScanMissAtFront(s: string, m: Matcher)
    requires Sound(m)
    requires |s| > 0 && m(s).None?
    ensures Scan(s, m) == [s[0]] + Scan(s[1..], m)
  {
  }

  /** A match at the front is replaced, and its replacement is not scanned again. */
  lemma ScanHitAtFront(s: string, m: Matcher)
    requires Sound(m)
    requires m(s).Some?
    ensures Scan(s, m) == m(s).value.out + Scan(s[m(s).value.len..], m)
  {
  }

  // ---------------------------------------------------------------------
  // literal patterns

  /** `pat` occurs in `s` at position `i`. */
  predicate OccursAt(s: string, pat: string, i: int) {
    0 <= i && i + |pat| <= |s| && s[i..i + |pat|] == pat
  }

  /** One differing character rules an occurrence out. */
  lemma Mismatch(s: string, pat: string, i: nat, k: nat)
    requires k < |pat| && (i + k >= |s| || s[i + k] != pat[k])
    ensures !OccursAt(s, pat, i)
  {
    if i + |pat| <= |s| {
      assert s[i..i + |pat|][k] == s[i + k];
    }
  }

  /** Matcher for a literal pattern, replaced by the literal text `w`. */
  function Literal(pat: string, w: string): Matcher {
    s => if 0 < |pat| <= |s| && s[..|pat|] == pat then Some(Hit(|pat|, w)) else None
  }

  lemma LiteralSound(pat: string, w: string)
    ensures Sound(Literal(pat, w))
  {
  }

  /** `s.replace(/pat/g, () => w)`: every occurrence of `pat`, leftmost first
      and without overlap, becomes `w`. */
  function ReplaceAll(s: string, pat: string, w: string): string
  {
    LiteralSound(pat, w);
    Scan(s, Literal(pat, w))
  }

  /** Text in which `pat` does not occur comes back unchanged. */
  lemma ReplaceAllAbsent(s: string, pat: string, w: string)
    requires forall i :: 0 <= i < |s| ==> !OccursAt(s, pat, i)
    ensures ReplaceAll(s, pat, w) == s
  {
    LiteralSound(pat, w);
    forall i | 0 <= i < |s|
      ensures Literal(pat, w)(s[i..]).None?
    {
      assert !OccursAt(s, pat, i);
      if 0 < |pat| <= |s[i..]| {
        PrefixOfSuffix(s, i, |pat|);
      }
    }
  }

  /** An occurrence at the front becomes `w`, and `w` is not scanned again. */
  lemma ReplaceAllFront(pat: string, rest: string, w: string)
    requires |pat| > 0
    ensures ReplaceAll(pat + rest, pat, w) == w + ReplaceAll(rest, pat, w)
  {
    LiteralSound(pat, w);
    var s := pat + rest;
    assert s[..|pat|] == pat;
    assert s[|pat|..] == rest;
  }

  /** The first position at which `pat` occurs in `s`, if any. */
  function IndexOf(s: string, pat: string): (r: Option<nat>)
    ensures r.Some? ==> OccursAt(s, pat, r.value)
    ensures r.Some? ==> forall j :: 0 <= j < r.value ==> !OccursAt(s, pat, j)
    ensures r.None? ==> forall j :: 0 <= j <= |s| ==> !OccursAt(s, pat, j)
  {
    IndexFromSpec(s, pat, 0);
    IndexFrom(s, pat, 0)
  }

  /** The first position at or after `from` at which `pat` occurs in `s`.
      `IndexFromSpec` states that it is the first. */
  function IndexFrom(s: string, pat: string, from: nat): (r: Option<nat>)
    requires from <= |s|
    ensures r.Some? ==> from <= r.value && r.value + |pat| <= |s|
    decreases |s| - from
  {
    if OccursAt(s, pat, from) then Some(from)
    else if from == |s| then None
    else IndexFrom(s, pat, from + 1)
  }

  lemma {:induction false} IndexFromSpec(s: string, pat: string, from: nat)
    requires from <= |s|
    ensures IndexFrom(s, pat, from).Some? ==> OccursAt(s, pat, IndexFrom(s, pat, from).value)
    ensures IndexFrom(s, pat, from).Some? ==>
      forall j :: from <= j < IndexFrom(s, pat, from).value ==> !OccursAt(s, pat, j)
    ensures IndexFrom(s, pat, from).None? ==> forall j :: from <= j <= |s| ==> !OccursAt(s, pat, j)
    decreases |s| - from
  {
    if !OccursAt(s, pat, from) && from < |s| {
      IndexFromSpec(s, pat, from + 1);
    }
  }

  lemma {:induction false} IndexFromFinds(s: string, pat: string, from: nat, j: nat)
    requires from <= j && OccursAt(s, pat, j)
    requires forall k :: from <= k < j ==> !OccursAt(s, pat, k)
    ensures IndexFrom(s, pat, from) == Some(j)
    decreases j - from
  {
    if from < j {
      IndexFromFinds(s, pat, from + 1, j);
    }
  }

  /** An occurrence is unaffected by text in front of it (which shifts its
      position) or by text after it. */
  lemma OccursIn(a: string, b: string, pat: string, i: nat)
    ensures OccursAt(a + b, pat, |a| + i) <==> OccursAt(b, pat, i)
    ensures i + |pat| <= |a| ==> (OccursAt(a + b, pat, i) <==> OccursAt(a, pat, i))
  {
    if |a| + i + |pat| <= |a + b| {
      assert (a + b)[|a| + i..|a| + i + |pat|] == b[i..i + |pat|];
    }
    if i + |pat| <= |a| {
      assert (a + b)[i..i + |pat|] == a[i..i + |pat|];
    }
  }

  /** Searching from the end of `head`, the first `pat` found is the one that
      ends `inner + pat`, when `inner + pat` holds no earlier one. */
  lemma FirstAfter(head: string, inner: string, pat: string, rest: string)
    requires forall k :: 0 <= k < |inner| ==> !OccursAt(inner + pat, pat, k)
    ensures IndexFrom(((head + inner) + pat) + rest, pat, |head|) == Some(|head| + |inner|)
  {
    var s := ((head + inner) + pat) + rest;
    var body := inner + pat;
    var n := |head|;
    var j := n + |inner|;
    Assoc(head + inner, pat, rest);
    Assoc(head, inner, pat + rest);
    Assoc(inner, pat, rest);
    assert s == head + (body + rest);
    assert OccursAt(body, pat, |inner|);
    OccursIn(head, body + rest, pat, |inner|);
    OccursIn(body, rest, pat, |inner|);
    forall k | n <= k < j
      ensures !OccursAt(s, pat, k)
    {
      assert !OccursAt(body, pat, k - n);
      OccursIn(body, rest, pat, k - n);
      OccursIn(head, body + rest, pat, k - n);
    }
    IndexFromFinds(s, pat, n, j);
  }

  // ---------------------------------------------------------------------
  // string replacement patterns, as the source's string replacements get them

  /** ECMAScript's GetSubstitution for a pattern without capture groups: in a
      replacement given as a STRING, `$$` stands for `$`, `$&` for the
      matched text, `` $` `` for the text before the match and `$'` for the
      text after it; every other character is literal. Replacement text
      without a `$` is inserted literally. */
  function Expand(t: string, matched: string, before: string, after: string): (r: string)
    ensures '$' !in t ==> r == t
  {
    if |t| == 0 then ""
    else if t[0] == '$' && |t| >= 2 && t[1] in "$&`'" then
      var piece := match t[1]
        case '$' => "$"
        case '&' => matched
        case '`' => before
        case _ => after;
      piece + Expand(t[2..], matched, before, after)
    else [t[0]] + Expand(t[1..], matched, before, after)
  }

  /** `$&` at the front of the replacement stands for the matched text. */
  lemma ExpandMatchFirst(rest: string, matched: string, before: string, after: string)
    requires '$' !in rest
    ensures Expand("$&" + rest, matched, before, after) == matched + rest
  {
    var t := "$&" + rest;
    assert t[0] == '$' && t[1] == '&' && t[2..] == rest;
  }

  /** Text without a `$` in front of the rest of a replacement is literal. */
  lemma {:induction false} ExpandLiteralPrefix(pre: string, t: string, matched: string, before: string, after: string)
    requires '$' !in pre
    ensures Expand(pre + t, matched, before, after) == pre + Expand(t, matched, before, after)
    decreases |pre|
  {
    if |pre| == 0 {
      assert pre + t == t;
    } else {
      var s := pre + t;
      assert s[0] == pre[0] && s[1..] == pre[1..] + t;
      ExpandLiteralPrefix(pre[1..], t, matched, before, after);
      Assoc([pre[0]], pre[1..], Expand(t, matched, before, after));
      HeadTail(pre);
    }
  }

  /** `s.replace(/pat/g, t)` with the replacement `t` given as a string, as
      written: every occurrence of `pat` becomes `Expand(t, …)` with the text
      around that occurrence in the whole of `s`. */
  function ReplaceAllAsWritten(s: string, pat: string, t: string): string
    requires |pat| > 0
  {
    ReplaceFrom(s, pat, t, 0)
  }

  function ReplaceFrom(s: string, pat: string, t: string, i: nat): string
    requires |pat| > 0 && i <= |s|
    decreases |s| - i
  {
    if i == |s| then ""
    else if OccursAt(s, pat, i) then
      Expand(t, pat, s[..i], s[i + |pat|..]) + ReplaceFrom(s, pat, t, i + |pat|)
    else [s[i]] + ReplaceFrom(s, pat, t, i + 1)
  }

  /** When the replacement text has no `$`, the as-written replacement is the
      literal one. */
  lemma AsWrittenAgreesWithoutDollar(s: string, pat: string, t: string)
    requires |pat| > 0 && '$' !in t
    ensures ReplaceAllAsWritten(s, pat, t) == ReplaceAll(s, pat, t)
  {
    FromAgrees(s, pat, t, 0);
    assert s[0..] == s;
  }

  lemma FromAgrees(s: string, pat: string, t: string, i: nat)
    requires |pat| > 0 && '$' !in t && i <= |s|
    ensures ReplaceFrom(s, pat, t, i) == ReplaceAll(s[i..], pat, t)
  {
    var f := u => ReplaceAll(u, pat, t);
    forall j | i <= j < |s|
      ensures StepsLike(s, pat, t, f, j)
    {
      if OccursAt(s, pat, j) {
        ReplaceAllHitAt(s, pat, t, j);
      } else {
        ReplaceAllMissAt(s, pat, t, j);
      }
    }
    assert f(s[|s|..]) == "" by {
      assert s[|s|..] == [];
    }
    FromSteps(s, pat, t, i, f);
  }

  /** At position `j`, `f` of the remaining text takes the step a literal
      replacement takes there. */
  ghost predicate StepsLike(s: string, pat: string, t: string, f: string -> string, j: nat)
    requires j < |s|
  {
    if OccursAt(s, pat, j) then f(s[j..]) == t + f(s[j + |pat|..])
    else f(s[j..]) == [s[j]] + f(s[j + 1..])
  }

  /** `ReplaceFrom` with a `$`-free replacement agrees with any function of
      the remaining text that takes the same steps. */
  lemma {:induction false} FromSteps(s: string, pat: string, t: string, i: nat, f: string -> string)
    requires |pat| > 0 && '$' !in t && i <= |s|
    requires f(s[|s|..]) == ""
    requires forall j :: i <= j < |s| ==> StepsLike(s, pat, t, f, j)
    ensures ReplaceFrom(s, pat, t, i) == f(s[i..])
    decreases |s| - i
  {
    if i < |s| {
      assert StepsLike(s, pat, t, f, i);
      if OccursAt(s, pat, i) {
        FromSteps(s, pat, t, i + |pat|, f);
      } else {
        FromSteps(s, pat, t, i + 1, f);
      }
    }
  }

  /** An occurrence at position `i` becomes `w`, and the replacement resumes after it. */
  lemma ReplaceAllHitAt(s: string, pat: string, w: string, i: nat)
    requires |pat| > 0 && OccursAt(s, pat, i)
    ensures ReplaceAll(s[i..], pat, w) == w + ReplaceAll(s[i + |pat|..], pat, w)
  {
    assert s[i..] == pat + s[i + |pat|..];
    ReplaceAllFront(pat, s[i + |pat|..], w);
  }

  /** Where `pat` does not occur at position `i`, that character is copied. */
  lemma ReplaceAllMissAt(s: string, pat: string, w: string, i: nat)
    requires i < |s| && !OccursAt(s, pat, i)
    ensures ReplaceAll(s[i..], pat, w) == [s[i]] + ReplaceAll(s[i + 1..], pat, w)
  {
    LiteralSound(pat, w);
    var u := s[i..];
    assert Literal(pat, w)(u).None? by {
      if 0 < |pat| <= |u| { PrefixOfSuffix(s, i, |pat|); }
    }
    ScanMissAtFront(u, Literal(pat, w));
    SuffixOfSuffix(s, i, 1);
  }

  /** A value containing `$&` put in place of `{{this}}` comes out as the
      placeholder itself instead of the value. */
  lemma DollarAmpersandEchoesMatch()
    ensures ReplaceAllAsWritten("{{this}}", "{{this}}", "$&") == "{{this}}"
    ensures ReplaceAll("{{this}}", "{{this}}", "$&") == "$&"
  {
    var s := "{{this}}";
    assert OccursAt(s, s, 0);
    assert s[..0] == "" && s[8..] == "";
    assert Expand("$&", s, "", "") == s + Expand("", s, "", "");
    ReplaceAllFront(s, "", "$&");
    assert s + "" == s;
    ReplaceAllAbsent("", s, "$&");
  }
}

=== FILE: spans.dfy ===
/** The `{{#each p}}…{{/each}}` span of `src/build.js`: what the block
    pattern matches at the front of a text, and the test for whether a text
    holds a span anywhere.

    A span is "{{#each", white space, a path, "}}", then the shortest body
    that the FIRST following "{{/each}}" closes. An opener inside the body
    does not get its own closer: nested blocks are not paired inside-out. */
module Spans {
  import opened Base
  import opened Text
  import opened Scanning
  import opened Placeholders

  const Open: string := "{{#each"

  const Close: string := "{{/each}}"

  /** A span: the white space after "{{#each", the array path, and the body. */
  datatype Block = Block(ws: string, path: string, inner: string) {
    /** The opening tag, "{{#each", white space, the path and "}}". */
    function Head(): string {
      Open + ws + path + "}}"
    }

    function Text(): string {
      Head() + inner + Close
    }
  }

  /** `inner` followed by the closer contains no earlier closer. */
  predicate FirstCloserAfter(inner: string) {
    forall k :: 0 <= k < |inner| ==> !OccursAt(inner + Close, Close, k)
  }

  /** The block pattern's requirements on a span. */
  predicate WellFormed(b: Block) {
    |b.ws| >= 1 && AllSpace(b.ws) && IsFieldPath(b.path) && FirstCloserAfter(b.inner)
  }

  /** Where the path of an opening tag starts (the white space before it
      runs from 7 to there) and where it ends ("}}" follows). */
  datatype Header = Header(pathStart: nat, pathEnd: nat)

  /** The opening tag "{{#each", white space, a path and "}}" at the front of
      `s`, if there is one. */
  function HeaderAt(s: string): (hd: Option<Header>)
    ensures hd.Some? ==> 7 < hd.value.pathStart < hd.value.pathEnd && hd.value.pathEnd + 2 <= |s|
  {
    if |s| >= 7 && s[..7] == Open then
      var a := SpaceEnd(s, 7);
      var e := PathEnd(s, a);
      if a > 7 && e > a && e + 2 <= |s| && s[e] == '}' && s[e + 1] == '}' then
        Some(Header(a, e))
      else None
    else None
  }

  /** The span the block pattern matches at the front of `s`, if any: the
      opening tag, then the shortest body that a closer ends.
      `BlockAtSpec` states what a returned span satisfies. */
  function BlockAt(s: string): (b: Option<Block>)
    ensures b.Some? ==> |b.value.Text()| <= |s|
  {
    match HeaderAt(s)
    case None => None
    case Some(hd) =>
      match IndexFrom(s, Close, hd.pathEnd + 2)
      case Some(j) => Some(Block(s[7..hd.pathStart], s[hd.pathStart..hd.pathEnd], s[hd.pathEnd + 2..j]))
      case None => None
  }

  /** A span found at the front of `s` is well formed, is a prefix of `s`,
      and ends with a closer. */
  lemma BlockAtSpec(s: string)
    ensures BlockAt(s).Some? ==>
      && WellFormed(BlockAt(s).value)
      && s[..|BlockAt(s).value.Text()|] == BlockAt(s).value.Text()
      && OccursAt(s, Close, |BlockAt(s).value.Text()| - 9)
  {
    if BlockAt(s).Some? {
      var a := HeaderAt(s).value.pathStart;
      var e := HeaderAt(s).value.pathEnd;
      var j := IndexFrom(s, Close, e + 2).value;
      HeaderAtSpec(s);
      BlockOf(s, a, e, j);
      IndexFromSpec(s, Close, e + 2);
      SpaceEndSpec(s, 7);
      PathEndSpec(s, a);
      BlockFound(s, a, e, j);
    }
  }

  /** What `HeaderAt` checked of the opening tag it found. */
  lemma HeaderAtSpec(s: string)
    ensures HeaderAt(s).Some? ==>
      && s[..7] == Open
      && SpaceEnd(s, 7) == HeaderAt(s).value.pathStart
      && PathEnd(s, HeaderAt(s).value.pathStart) == HeaderAt(s).value.pathEnd
      && s[HeaderAt(s).value.pathEnd] == '}' && s[HeaderAt(s).value.pathEnd + 1] == '}'
  {
  }

  /** What the scan in `BlockAt` establishes about the span it returns. */
  lemma BlockFound(s: string, a: nat, e: nat, j: nat)
    requires 7 < a < e && e + 2 <= j && j + 9 <= |s|
    requires s[..7] == Open && s[e] == '}' && s[e + 1] == '}' && OccursAt(s, Close, j)
    requires forall k :: 7 <= k < a ==> IsSpace(s[k])
    requires forall k :: a <= k < e ==> IsPathChar(s[k])
    requires forall k :: e + 2 <= k < j ==> !OccursAt(s, Close, k)
    ensures var b := Block(s[7..a], s[a..e], s[e + 2..j]);
      WellFormed(b) && |b.Text()| == j + 9 && s[..j + 9] == b.Text()
  {
    HeadFound(s, a, e);
    TextFound(s, Block(s[7..a], s[a..e], s[e + 2..j]), e + 2, j);
    FirstCloserOfSlice(s, e + 2, j);
  }

  /** The opening tag's parts, read off the text. */
  lemma HeadFound(s: string, a: nat, e: nat)
    requires 7 < a < e && e + 2 <= |s|
    requires s[..7] == Open && s[e] == '}' && s[e + 1] == '}'
    requires forall k :: 7 <= k < a ==> IsSpace(s[k])
    requires forall k :: a <= k < e ==> IsPathChar(s[k])
    ensures AllSpace(s[7..a]) && IsFieldPath(s[a..e])
    ensures s[..e + 2] == Block(s[7..a], s[a..e], []).Head()
  {
    assert AllSpace(s[7..a]) by {
      assert forall i :: 0 <= i < a - 7 ==> s[7..a][i] == s[7 + i];
    }
    assert IsFieldPath(s[a..e]) by {
      assert forall i :: 0 <= i < e - a ==> s[a..e][i] == s[a + i];
    }
    assert s[e..e + 2] == "}}";
    PrefixSplit(s, 7, a);
    PrefixSplit(s, a, e);
    PrefixSplit(s, e, e + 2);
  }

  /** A head, a body and a closer found one after the other make up the span. */
  lemma TextFound(s: string, b: Block, h: nat, j: nat)
    requires h <= j && j + 9 <= |s|
    requires s[..h] == b.Head() && b.inner == s[h..j] && OccursAt(s, Close, j)
    ensures |b.Text()| == j + 9 && s[..j + 9] == b.Text()
  {
    PrefixSplit(s, h, j);
    PrefixSplit(s, j, j + 9);
    assert s[j..j + 9] == Close;
  }

  lemma FirstCloserOfSlice(s: string, from: nat, j: nat)
    requires from <= j && OccursAt(s, Close, j)
    requires forall k :: from <= k < j ==> !OccursAt(s, Close, k)
    ensures FirstCloserAfter(s[from..j])
  {
    var inner := s[from..j];
    assert inner + Close == s[from..j + 9];
    forall k | 0 <= k < |inner|
      ensures !OccursAt(inner + Close, Close, k)
    {
      assert !OccursAt(s, Close, from + k);
      assert (inner + Close)[k..k + 9] == s[from + k..from + k + 9];
    }
  }

  // ---------------------------------------------------------------------
  // recognising a span

  /** Every well-formed span is recognised at the front of a text, whatever
      follows it: the leftmost opener is closed by the first closer after it,
      whatever else (another opener included) the body holds. */
  lemma BlockRecognised(b: Block, rest: string)
    requires WellFormed(b)
    ensures BlockAt(b.Text() + rest) == Some(b)
  {
    var s := b.Text() + rest;
    var a := 7 + |b.ws|;
    var e := a + |b.path|;
    var j := e + 2 + |b.inner|;
    Layout(b, rest);
    HeaderRecognised(s, b.ws, b.path);
    CloserFound(b, rest);
    RecognisedIn(s, b);
  }

  /** `BlockAt` on a text whose opening tag, closer and parts are known. */
  lemma RecognisedIn(s: string, b: Block)
    requires var a := 7 + |b.ws|;
      var e := a + |b.path|;
      var j := e + 2 + |b.inner|;
      && j <= |s|
      && HeaderAt(s) == Some(Header(a, e))
      && IndexFrom(s, Close, e + 2) == Some(j)
      && s[7..a] == b.ws && s[a..e] == b.path && s[e + 2..j] == b.inner
    ensures BlockAt(s) == Some(b)
  {
    var a := 7 + |b.ws|;
    var e := a + |b.path|;
    var j := e + 2 + |b.inner|;
    BlockOf(s, a, e, j);
    assert Block(s[7..a], s[a..e], s[e + 2..j]) == b;
  }

  /** Where the parts of a span sit in its text. */
  lemma Layout(b: Block, rest: string)
    ensures var s := b.Text() + rest;
      var a := 7 + |b.ws|;
      var e := a + |b.path|;
      && e + 2 + |b.inner| + 9 <= |s| && |b.Head()| == e + 2
      && s[..7] == Open && s[e] == '}' && s[e + 1] == '}'
      && s[7..a] == b.ws && s[a..e] == b.path && s[e + 2..e + 2 + |b.inner|] == b.inner
  {
    var s := b.Text() + rest;
    var h := b.Head();
    var a := 7 + |b.ws|;
    var e := a + |b.path|;
    HeadLayout(b);
    Assoc(h + b.inner, Close, rest);
    Assoc(h, b.inner, Close + rest);
    assert s == h + (b.inner + (Close + rest));
    SliceOfAppend(h, b.inner + (Close + rest), 0, 7);
    SliceOfAppend(h, b.inner + (Close + rest), 7, a);
    SliceOfAppend(h, b.inner + (Close + rest), a, e);
    assert s[e] == h[e] && s[e + 1] == h[e + 1];
    assert s[e + 2..] == b.inner + (Close + rest);
    assert s[e + 2..e + 2 + |b.inner|] == s[e + 2..][..|b.inner|];
  }

  /** Where the parts of an opening tag sit in it. */
  lemma HeadLayout(b: Block)
    ensures var h := b.Head();
      var a := 7 + |b.ws|;
      var e := a + |b.path|;
      && |h| == e + 2 && h[..7] == Open && h[7..a] == b.ws && h[a..e] == b.path
      && h[e] == '}' && h[e + 1] == '}'
  {
    var h0 := Open + b.ws;
    var h1 := h0 + b.path;
    var a := 7 + |b.ws|;
    var e := a + |b.path|;
    assert b.Head() == h1 + "}}";
    SliceOfAppend(h1, "}}", 0, 7);
    SliceOfAppend(h0, b.path, 0, 7);
    SliceOfAppend(h1, "}}", 7, a);
    SliceOfAppend(h0, b.path, 7, a);
    SliceOfAppend(h1, "}}", a, e);
    assert h0[..7] == Open;
    assert h0[7..a] == b.ws;
    assert h1[a..e] == b.path;
  }

  /** The opening tag of a span is recognised at the front of its text. */
  lemma HeaderRecognised(s: string, ws: string, path: string)
    requires |ws| >= 1 && AllSpace(ws) && IsFieldPath(path)
    requires var a := 7 + |ws|;
      var e := a + |path|;
      && e + 2 <= |s| && s[..7] == Open && s[e] == '}' && s[e + 1] == '}'
      && s[7..a] == ws && s[a..e] == path
    ensures HeaderAt(s) == Some(Header(7 + |ws|, 7 + |ws| + |path|))
  {
    var a := 7 + |ws|;
    var e := a + |path|;
    assert forall k :: 7 <= k < a ==> s[k] == s[7..a][k - 7];
    assert forall k :: a <= k < e ==> s[k] == s[a..e][k - a];
    PathCharNotSpace(s[a]);
    SpaceEndIs(s, 7, a);
    PathEndIs(s, a, e);
  }

  lemma BlockOf(s: string, a: nat, e: nat, j: nat)
    requires e + 2 <= j <= |s|
    requires HeaderAt(s) == Some(Header(a, e))
    requires IndexFrom(s, Close, e + 2) == Some(j)
    ensures BlockAt(s) == Some(Block(s[7..a], s[a..e], s[e + 2..j]))
  {
  }

  /** The first closer after a span's head is the span's own closer. */
  lemma CloserFound(b: Block, rest: string)
    requires FirstCloserAfter(b.inner)
    ensures var e := 7 + |b.ws| + |b.path|;
      e + 2 <= |b.Text() + rest|
      && IndexFrom(b.Text() + rest, Close, e + 2) == Some(e + 2 + |b.inner|)
  {
    HeadLayout(b);
    FirstAfter(b.Head(), b.inner, Close, rest);
  }

  // ---------------------------------------------------------------------
  // the test for a span

  /** No span starts anywhere in `s`. */
  ghost predicate NoBlock(s: string) {
    forall i :: 0 <= i < |s| ==> BlockAt(s[i..]).None?
  }

  /** `eachRegex.test(result)`: a span starts somewhere in `s`. The regular
      expression is global, but its `lastIndex` is 0 at every test: `replace`
      and the reset after it both leave it there. */
  predicate HasBlock(s: string) {
    |s| > 0 && (BlockAt(s).Some? || HasBlock(s[1..]))
  }

  /** The test fails exactly when no span starts anywhere. */
  lemma {:induction false} HasBlockIff(s: string)
    ensures HasBlock(s) <==> !NoBlock(s)
  {
    if |s| > 0 {
      assert s[0..] == s;
      HasBlockIff(s[1..]);
      assert forall i :: 0 <= i < |s| - 1 ==> s[1..][i..] == s[i + 1..];
      if !BlockAt(s).Some? && !HasBlock(s[1..]) {
        forall i | 0 <= i < |s|
          ensures BlockAt(s[i..]).None?
        {
          if i > 0 {
            assert s[i..] == s[1..][i - 1..];
          }
        }
      }
    }
  }

  /** Text with no closer has no span: an unclosed `{{#each` is left in place
      and the whole text is returned unchanged. */
  lemma {:induction false} NoCloserNoBlock(s: string)
    requires forall j :: 0 <= j <= |s| ==> !OccursAt(s, Close, j)
    ensures !HasBlock(s)
    decreases |s|
  {
    if |s| > 0 {
      NoCloserNoSpan(s);
      forall j | 0 <= j <= |s[1..]|
        ensures !OccursAt(s[1..], Close, j)
      {
        assert !OccursAt(s, Close, j + 1);
        if j + 9 <= |s[1..]| {
          assert s[1..][j..j + 9] == s[j + 1..j + 1 + 9];
        }
      }
      NoCloserNoBlock(s[1..]);
    }
  }

  lemma NoCloserNoSpan(s: string)
    requires forall j :: 0 <= j <= |s| ==> !OccursAt(s, Close, j)
    ensures BlockAt(s).None?
  {
    BlockAtSpec(s);
  }
}

=== FILE: text.dfy ===
/** Character classes and string helpers with the meaning JavaScript gives them:
    the `\s` and `\w` regular-expression classes, `String.prototype.trim`,
    `String.prototype.split` with a one-character separator, and the decimal
    text of a non-negative integer. */
module Text {

  /** The `\s` class of JavaScript regular expressions, which is also the set
      of characters `String.prototype.trim` removes. */
  predicate IsSpace(c: char) {
    || c == '\t' || c == '\n' || c == '\U{B}' || c == '\U{C}' || c == '\r' || c == ' '
    || c == '\U{A0}' || c == '\U{1680}' || ('\U{2000}' <= c <= '\U{200A}')
    || c == '\U{2028}' || c == '\U{2029}' || c == '\U{202F}' || c == '\U{205F}'
    || c == '\U{3000}' || c == '\U{FEFF}'
  }

  predicate IsDigit(c: char) {
    '0' <= c <= '9'
  }

  /** The `\w` class: ASCII letters, digits and underscore. */
  predicate IsWordChar(c: char) {
    ('A' <= c <= 'Z') || ('a' <= c <= 'z') || IsDigit(c) || c == '_'
  }

  /** The `[\w.]` class the template placeholders use for field paths. */
  predicate IsPathChar(c: char) {
    IsWordChar(c) || c == '.'
  }

  predicate AllDigits(s: string) {
    forall i :: 0 <= i < |s| ==> IsDigit(s[i])
  }

  predicate AllSpace(s: string) {
    forall i :: 0 <= i < |s| ==> IsSpace(s[i])
  }

  /** Where the run of path characters that starts at `i` ends. */
  function PathEnd(s: string, i: nat): (e: nat)
    requires i <= |s|
    ensures i <= e <= |s|
    decreases |s| - i
  {
    if i < |s| && IsPathChar(s[i]) then PathEnd(s, i + 1) else i
  }

  /** The run is made of path characters and cannot be extended. */
  lemma {:induction false} PathEndSpec(s: string, i: nat)
    requires i <= |s|
    ensures forall k :: i <= k < PathEnd(s, i) ==> IsPathChar(s[k])
    ensures PathEnd(s, i) == |s| || !IsPathChar(s[PathEnd(s, i)])
    decreases |s| - i
  {
    if i < |s| && IsPathChar(s[i]) {
      PathEndSpec(s, i + 1);
    }
  }

  /** A run of path characters ended by another character is the run found. */
  lemma {:induction false} PathEndIs(s: string, i: nat, e: nat)
    requires i <= e < |s| && !IsPathChar(s[e])
    requires forall k :: i <= k < e ==> IsPathChar(s[k])
    ensures PathEnd(s, i) == e
    decreases e - i
  {
    if i < e {
      PathEndIs(s, i + 1, e);
    }
  }

  /** Where the run of white space that starts at `i` ends. */
  function SpaceEnd(s: string, i: nat): (e: nat)
    requires i <= |s|
    ensures i <= e <= |s|
    decreases |s| - i
  {
    if i < |s| && IsSpace(s[i]) then SpaceEnd(s, i + 1) else i
  }

  /** The run is made of white space and cannot be extended. */
  lemma {:induction false} SpaceEndSpec(s: string, i: nat)
    requires i <= |s|
    ensures forall k :: i <= k < SpaceEnd(s, i) ==> IsSpace(s[k])
    ensures SpaceEnd(s, i) == |s| || !IsSpace(s[SpaceEnd(s, i)])
    decreases |s| - i
  {
    if i < |s| && IsSpace(s[i]) {
      SpaceEndSpec(s, i + 1);
    }
  }

  /** A run of white space ended by another character is the run found. */
  lemma {:induction false} SpaceEndIs(s: string, i: nat, e: nat)
    requires i <= e < |s| && !IsSpace(s[e])
    requires forall k :: i <= k < e ==> IsSpace(s[k])
    ensures SpaceEnd(s, i) == e
    decreases e - i
  {
    if i < e {
      SpaceEndIs(s, i + 1, e);
    }
  }

  lemma PathCharNotSpace(c: char)
    requires IsPathChar(c)
    ensures !IsSpace(c)
  {
  }

  lemma SliceOfAppend(a: string, b: string, i: nat, j: nat)
    requires i <= j <= |a|
    ensures (a + b)[i..j] == a[i..j]
  {
  }

  lemma PrefixSplit(s: string, j: nat, k: nat)
    requires j <= k <= |s|
    ensures s[..k] == s[..j] + s[j..k]
  {
  }

  lemma HeadTail(u: string)
    requires |u| > 0
    ensures [u[0]] + u[1..] == u
  {
  }

  lemma PrefixOfSuffix(s: string, i: nat, n: nat)
    requires i + n <= |s|
    ensures s[i..][..n] == s[i..i + n]
  {
  }

  lemma SuffixOfSuffix(s: string, i: nat, j: nat)
    requires i + j <= |s|
    ensures s[i..][j..] == s[i + j..]
  {
  }

  lemma Assoc(a: string, b: string, c: string)
    ensures (a + b) + c == a + (b + c)
  {
  }

  // ---------------------------------------------------------------------
  // trim

  /** Where the run of white space that ends at `j` starts, looking no
      further back than `lo`. */
  function SpaceStart(s: string, lo: nat, j: nat): (b: nat)
    requires lo <= j <= |s|
    ensures lo <= b <= j
    decreases j
  {
    if j > lo && IsSpace(s[j - 1]) then SpaceStart(s, lo, j - 1) else j
  }

  lemma {:induction false} SpaceStartSpec(s: string, lo: nat, j: nat)
    requires lo <= j <= |s|
    ensures forall k :: SpaceStart(s, lo, j) <= k < j ==> IsSpace(s[k])
    ensures SpaceStart(s, lo, j) == lo || !IsSpace(s[SpaceStart(s, lo, j) - 1])
    decreases j
  {
    if j > lo && IsSpace(s[j - 1]) {
      SpaceStartSpec(s, lo, j - 1);
    }
  }

  lemma {:induction false} SpaceStartIs(s: string, lo: nat, b: nat, j: nat)
    requires lo < b <= j <= |s| && !IsSpace(s[b - 1])
    requires forall k :: b <= k < j ==> IsSpace(s[k])
    ensures SpaceStart(s, lo, j) == b
    decreases j
  {
    if b < j {
      SpaceStartIs(s, lo, b, j - 1);
    }
  }

  /** `String.prototype.trim`: what lies between the leading and the trailing
      run of white space. */
  function Trim(s: string): (r: string)
    ensures |r| <= |s|
  {
    s[SpaceEnd(s, 0)..SpaceStart(s, SpaceEnd(s, 0), |s|)]
  }

  /** `s` is white space, then `Trim(s)`, then white space, and neither end
      of `Trim(s)` is white space. */
  lemma TrimSpec(s: string)
    ensures var a := SpaceEnd(s, 0);
      && a + |Trim(s)| <= |s|
      && s[a..a + |Trim(s)|] == Trim(s)
      && (forall k :: 0 <= k < a ==> IsSpace(s[k]))
      && (forall k :: a + |Trim(s)| <= k < |s| ==> IsSpace(s[k]))
    ensures Trim(s) == [] || (!IsSpace(Trim(s)[0]) && !IsSpace(Trim(s)[|Trim(s)| - 1]))
  {
    var a := SpaceEnd(s, 0);
    SpaceEndSpec(s, 0);
    SpaceStartSpec(s, a, |s|);
  }

  /** Trimming is determined by its result: text made of white space, then a
      piece whose ends are not white space, then white space, trims to that
      piece. */
  lemma TrimOf(lead: string, r: string, trail: string)
    requires AllSpace(lead) && AllSpace(trail)
    requires r == [] || (!IsSpace(r[0]) && !IsSpace(r[|r| - 1]))
    ensures Trim(lead + r + trail) == r
  {
    var s := lead + r + trail;
    if r == [] {
      assert s == lead + trail;
      SpaceEndSpec(s, 0);
      assert SpaceEnd(s, 0) == |s|;
    } else {
      LeadEnds(lead, r, trail);
      TrailStarts(lead, r, trail);
      assert s[|lead|..|lead| + |r|] == r;
    }
  }

  /** The leading white space of `lead + r + trail` is `lead`. */
  lemma LeadEnds(lead: string, r: string, trail: string)
    requires AllSpace(lead) && r != [] && !IsSpace(r[0])
    ensures SpaceEnd(lead + r + trail, 0) == |lead|
  {
    var s := lead + r + trail;
    assert forall k :: 0 <= k < |lead| ==> s[k] == lead[k];
    assert s[|lead|] == r[0];
    SpaceEndIs(s, 0, |lead|);
  }

  /** The trailing white space of `lead + r + trail` is `trail`. */
  lemma TrailStarts(lead: string, r: string, trail: string)
    requires AllSpace(trail) && r != [] && !IsSpace(r[|r| - 1])
    ensures SpaceStart(lead + r + trail, |lead|, |lead + r + trail|) == |lead| + |r|
  {
    var s := lead + r + trail;
    var e := |lead| + |r|;
    assert forall k :: e <= k < |s| ==> s[k] == trail[k - e];
    assert s[e - 1] == r[|r| - 1];
    SpaceStartIs(s, |lead|, e, |s|);
  }

  /** Text that already has no white space at either end is its own trim. */
  lemma TrimUnpadded(s: string)
    requires s == [] || (!IsSpace(s[0]) && !IsSpace(s[|s| - 1]))
    ensures Trim(s) == s
  {
    TrimOf([], s, []);
    assert [] + s + [] == s;
  }

  /** Trimming twice trims no more than trimming once. */
  lemma TrimIdempotent(s: string)
    ensures Trim(Trim(s)) == Trim(s)
  {
    TrimSpec(s);
    TrimUnpadded(Trim(s));
  }

  // ---------------------------------------------------------------------
  // split / join

  function Join(parts: seq<string>, sep: char): string
    requires |parts| >= 1
  {
    if |parts| == 1 then parts[0] else parts[0] + [sep] + Join(parts[1..], sep)
  }

  /** `s.split(sep)` for a one-character separator: the maximal pieces of `s`
      between separators, in order; joining them back gives `s`. */
  function Split(s: string, sep: char): (parts: seq<string>)
    ensures |parts| >= 1
    ensures forall i :: 0 <= i < |parts| ==> sep !in parts[i]
    ensures Join(parts, sep) == s
  {
    if |s| == 0 then [""]
    else
      var rest := Split(s[1..], sep);
      if s[0] == sep then [""] + rest
      else
        var parts := [[s[0]] + rest[0]] + rest[1..];
        assert parts[1..] == rest[1..];
        parts
  }

  /** Splitting undoes joining: the separator-free pieces are recovered exactly. */
  lemma {:induction false} SplitJoin(parts: seq<string>, sep: char)
    requires |parts| >= 1
    requires forall i :: 0 <= i < |parts| ==> sep !in parts[i]
    ensures Split(Join(parts, sep), sep) == parts
    decreases |parts|, |parts[0]|
  {
    if |parts| == 1 {
      SplitPiece(parts[0], sep);
    } else {
      var head := parts[0];
      var tail := Join(parts[1..], sep);
      if |head| == 0 {
        SplitJoin(parts[1..], sep);
        assert Join(parts, sep) == [sep] + tail;
        assert ([sep] + tail)[1..] == tail;
      } else {
        var shorter := [head[1..]] + parts[1..];
        assert shorter[1..] == parts[1..];
        SplitJoin(shorter, sep);
        assert Join(parts, sep) == [head[0]] + Join(shorter, sep);
        assert (Join(parts, sep))[1..] == Join(shorter, sep);
        assert [head[0]] + head[1..] == head;
      }
    }
  }

  lemma {:induction false} SplitPiece(s: string, sep: char)
    requires sep !in s
    ensures Split(s, sep) == [s]
  {
    if |s| > 0 {
      SplitPiece(s[1..], sep);
      assert [s[0]] + s[1..] == s;
    }
  }

  /** Two texts with the same pieces are the same text. */
  lemma SplitInjective(s: string, t: string, sep: char)
    requires Split(s, sep) == Split(t, sep)
    ensures s == t
  {
  }

  // ---------------------------------------------------------------------
  // decimal numerals

  function DigitChar(d: nat): (c: char)
    requires d < 10
    ensures IsDigit(c)
  {
    ['0', '1', '2', '3', '4', '5', '6', '7', '8', '9'][d]
  }

  function DigitValue(c: char): (d: nat)
    requires IsDigit(c)
    ensures d < 10 && DigitChar(d) == c
  {
    (c as int - '0' as int) as nat
  }

  /** `String(n)` for a non-negative integer: its shortest decimal numeral. */
  function Decimal(n: nat): (s: string)
    ensures |s| >= 1 && AllDigits(s)
    ensures s[0] != '0' || n == 0
  {
    if n < 10 then [DigitChar(n)] else Decimal(n / 10) + [DigitChar(n % 10)]
  }

  /** The value of a numeral made of decimal digits. */
  function DigitsValue(s: string): nat
    requires AllDigits(s)
  {
    if |s| == 0 then 0 else 10 * DigitsValue(s[..|s| - 1]) + DigitValue(s[|s| - 1])
  }

  /** Reading back a decimal numeral gives the number that was written. */
  lemma {:induction false} DecimalRoundTrip(n: nat)
    ensures DigitsValue(Decimal(n)) == n
  {
    if n >= 10 {
      DecimalRoundTrip(n / 10);
      var s := Decimal(n);
      assert s[..|s| - 1] == Decimal(n / 10);
    }
  }

  /** Different numbers have different numerals. */
  lemma DecimalInjective(m: nat, n: nat)
    requires Decimal(m) == Decimal(n)
    ensures m == n
  {
    DecimalRoundTrip(m);
    DecimalRoundTrip(n);
  }
}
